=== FILE: README.md ===
# Catalog backend: controllers, routers and middleware

This project models the request-handling core of a small catalog backend. The backend is an Express application over a Firestore database, and it has two collections, `products` and `categories`. Each collection gets five routes: list (with search), get by id, create, update and delete. In front of the controllers sit declarative validation chains (express-validator), the `validateRequest` middleware that turns their errors into a 422 response, and the `verifyFirebaseToken` middleware that authenticates write requests with a bearer token or a `token` cookie.

The model is pure Dafny:

- A collection is a map from document ids to records.
- A record maps field names to JavaScript values. A field written as `undefined` is `None`.
- A request carries the `:id` path segment, the parsed query and body, the `Authorization` header and the `token` cookie.
- The clock, the id the store hands out, the identity provider's verdict on a token, the library's URL check, its `isFloat` reading of a text and `Number`'s reading of a string are parameters, bundled in `Runtime.Env`.
- A list handler receives the collection's snapshot as a sequence of documents. `Documents.Enumerates` ties the snapshot to the store.

Modules, following the source layout:

| module | models |
|---|---|
| `JsValues` | JavaScript values, truthiness, `Number`, ASCII `toLowerCase`, `includes`, `split`/`join` |
| `Seqs` | order-preserving selection (subsequence) |
| `Documents` | records, the collection map, `{ id, ...data }`, `update` merge, `where ==`, snapshots |
| `Http`, `Runtime` | requests, JSON responses, handler outcomes; the external collaborators |
| `Search` | the name/description search of both list handlers |
| `Crud` | the existence-checked get/add/update/delete shared by both controllers |
| `ProductController`, `CategoryController` | the ten handlers |
| `Validation` | validation chains, checks, error paths, `validationResult` |
| `ValidateRequest` | the 422 middleware |
| `AuthMiddleware` | token extraction and verification |
| `Pipeline` | per-route order: token check? → chains → `validateRequest`? → controller |
| `ProductRoutes`, `CategoryRoutes` | the two routers, their chains, and route-level properties |
| `RoundTrips` | what a read sees after each write |

Behaviour of the code worth knowing, which the model keeps:

- **Product write routes.** `POST`, `PUT` and `DELETE /api/products` have `verifyFirebaseToken` and `validateRequest` commented out (routes/productRoutes.js:91-113). Their chains run, but nobody reads the result, and no token is checked. `ProductRoutes.Handle` models this as written. `ProductRoutes.GuardedHandle` is the router with both guards restored (see Findings).
- **Search can fail.** `p.name?.toLowerCase()` throws when `name` is present but is neither text nor `null`. The throw reaches `next(err)`, so the whole list request fails (`Search.Judge`, `ErrorForwarded`). Because `||` short-circuits, the description is only looked at when the name does not match.
- **Creates can fail on missing fields.** `createProduct` copies `name`, `description` and `category` without defaults, and `createCategory` copies `name`. When one of them is missing, the document written holds an `undefined` field. Firestore refuses such a document unless the client is configured to ignore undefined properties, and config/firebaseAdmin.js does not configure that. So the add throws and the error is passed on (`Crud.Insert`).
- **A text `isAvailable` is stored as `true`.** The availability check accepts the text `"false"`, but `createProduct` keeps `isAvailable` only when it is a boolean. The text `"false"` is therefore stored as `true` (`RoundTrips.TextFalseStoredAvailable`). `updateProduct` stores whatever was sent.
- **The id can shadow the document id.** `{ id: doc.id, ...doc.data() }` spreads the data after the id, so a stored field named `id` replaces the document id in responses (`Documents.View`).

## Model

| member | source | states |
|---|---|---|
| JsValues.ToNumber | controllers/productController.js:70 | `Number(price)` is always a number or `NaN`; `undefined` gives `NaN`; a number is kept unchanged |
| JsValues.NumberOf | controllers/productController.js:70 | `Number(x)` of a present value: a number is kept, `null`, `false` and `[]` give 0, `true` gives 1, `NaN` and an object give `NaN`; text goes through `Env.numeral`, and arrays are characterised by JsValues.ArrayNumber |
| JsValues.ArrayNumber | controllers/productController.js:70 | `Number` of an array reads its text: `[]` and `[null]` give 0, one number, numeral or nested array gives what that element alone gives, one boolean or object gives `NaN`, and two or more elements give `NaN` |
| JsValues.ArrayNumberExamples | controllers/productController.js:108 | `Number([])` is 0, `Number([7])` and `Number(["7"])` are 7, `Number([[null]])` is 0, and `Number([1, 2])` is `NaN` |
| JsValues.Lower | controllers/productController.js:26 | lower-casing keeps the length of the text |
| JsValues.LowerIdempotent | controllers/productController.js:26 | lower-casing an already lower-cased term changes nothing |
| JsValues.ContainsIffOccurs | controllers/productController.js:29-30 | the scanning `includes` holds exactly when the needle occurs at some position of the text |
| JsValues.Word | middlewares/authMiddleware.js:7 | the word before the first space contains no space, is a prefix of the text, and ends at the end of the text or at a space |
| JsValues.Split | middlewares/authMiddleware.js:7 | `split(" ")` yields at least one piece, and no piece contains the separator |
| JsValues.SplitJoin | middlewares/authMiddleware.js:7 | joining the pieces of a split with the separator gives back the original text |
| JsValues.SplitFirstPiece | middlewares/authMiddleware.js:7 | the first piece of a split is the word before the first separator |
| JsValues.SplitAfterWord | middlewares/authMiddleware.js:6-7 | a separator-free word followed by the separator splits off as the first piece, so `"Bearer " + t` splits into `"Bearer"` and the pieces of `t` |
| Seqs.SubsequenceMembers | controllers/productController.js:27-31 | every element of a filtered list is an element of the original list |
| Seqs.SubsequenceRefl | controllers/productController.js:25 | a list left unfiltered is a subsequence of itself |
| Documents.View | controllers/productController.js:18-21 | the response shape has the data's fields plus `id`; the data's values win, including a stored `id`; otherwise `id` is the document id |
| Documents.Views | controllers/productController.js:17-22 | one response shape per snapshot document, in snapshot order |
| Documents.ViewsMembers | controllers/productController.js:17-22 | a record is in the response list exactly when it is the shape of some snapshot document |
| Documents.Merge | controllers/productController.js:115 | `update(patch)` overwrites the patch's fields, keeps every other stored field, and adds no other keys |
| Documents.WhereEquals | controllers/productController.js:10-14 | `where(f, "==", v)` keeps exactly the documents whose field equals `v`, in snapshot order |
| Documents.WhereEqualsNone | controllers/productController.js:10-14 | a value no document holds selects nothing |
| Documents.SnapshotViews | controllers/productController.js:14-22 | over a snapshot of the store, the response shapes are exactly those of the stored documents |
| Search.FieldVerdict | controllers/productController.js:29 | a missing or `null` field drops the record, non-text throws, and text is kept exactly when its lower-cased form contains the term |
| Search.Judge | controllers/productController.js:28-30 | kept implies the name or description mentions the term; dropped implies neither does; it throws exactly when the name is non-text, or the name does not match and the description is non-text |
| Search.Filter | controllers/productController.js:27-31 | the filter fails exactly when some record throws; otherwise it keeps exactly the records that mention the term, in their original order, each as many times as it occurs |
| Search.ApplySearch | controllers/productController.js:25-32 | an absent or empty term returns the list unchanged; otherwise the result is the order-preserving selection of the records mentioning the lower-cased term, each kept as many times as it occurs |
| Search.SearchIgnoresCase | controllers/productController.js:26 | searching for a term and for its lower-cased form give the same result |
| Search.NameMatchKeeps | controllers/productController.js:28-30 | any record whose name is text whose lower-cased form contains the lower-cased term is kept, whatever its description holds, because `||` never reaches it |
| Search.SpicyTunaRoll | controllers/productController.js:25-31 | a record named "Spicy Tuna Roll" with a numeric description is kept for "spicy", "TUNA" and "roll", without the throw its description would cause |
| ProductController.Fetch | controllers/productController.js:6-14 | a truthy `category` query value, text or the array a repeated parameter gives, keeps exactly the products whose category equals that value, in snapshot order; otherwise every product is fetched |
| ProductController.FetchedViews | controllers/productController.js:10-22 | over a snapshot of the store, a truthy category value yields the shapes of exactly the stored products holding it, each with its id |
| ProductController.GetProducts | controllers/productController.js:4-38 | answers 200 with `products`; every item is a fetched product's response shape, in order; with a truthy category value every item's category equals that value, array or text; no term gives everything fetched; with a term, exactly the mentioning products in order, each as often as fetched, or `next(err)` exactly when one of them throws |
| ProductController.GetProductById | controllers/productController.js:41-56 | never writes; a missing id gives 404 "Product not found"; otherwise 200 with the stored fields plus the id |
| ProductController.NewProduct | controllers/productController.js:61-76 | the new document has exactly the six fields and two timestamps; the text fields are as sent; price is `Number(price)`; a non-array `imageUrls` becomes `[]`; a non-boolean `isAvailable` becomes `true`; `createdAt == updatedAt == now` |
| ProductController.CreateProduct | controllers/productController.js:58-85 | without name, description or category the add fails and nothing is written; otherwise 201 with the fresh id, exactly that key added, and no other product changed |
| ProductController.ProductPatch | controllers/productController.js:100-113 | the patch holds `updatedAt = now` plus exactly the editable fields the body defines, with price through `Number` and a non-array `imageUrls` as `[]` |
| ProductController.UpdateProduct | controllers/productController.js:88-121 | a missing id gives 404 and no write; otherwise the sent editable fields and `updatedAt` change, every other field and every other product stays the same, and no key is added to or removed from the collection |
| ProductController.DeleteProduct | controllers/productController.js:124-141 | a missing id gives 404 and no write; otherwise exactly that key is removed and no other product changes |
| CategoryController.GetCategories | controllers/categoryController.js:5-33 | answers 200 with `categories`; no term gives every category in snapshot order; with a term, exactly the mentioning ones in order, each as often as in the snapshot, or `next(err)` exactly when one of them throws |
| CategoryController.GetCategoryById | controllers/categoryController.js:36-51 | never writes; a missing id gives 404 "Category not found"; otherwise 200 with the stored fields plus the id |
| CategoryController.NewCategory | controllers/categoryController.js:56-64 | the name is as sent; a truthy description is kept and a falsy one becomes `""`; `createdAt == updatedAt == now` |
| CategoryController.CreateCategory | controllers/categoryController.js:54-73 | without a name the add fails and nothing is written; otherwise 201 with the fresh id, exactly that key added, and no other category changed |
| CategoryController.CategoryPatch | controllers/categoryController.js:88-94 | the patch holds `updatedAt = now` plus exactly the name and description the body defines |
| CategoryController.UpdateCategory | controllers/categoryController.js:76-102 | a missing id gives 404 and no write; otherwise only `updatedAt` and the sent name and description change |
| CategoryController.DeleteCategory | controllers/categoryController.js:105-122 | a missing id gives 404 and no write; otherwise exactly that key is removed |
| Http.QueryText | controllers/productController.js:6 | a query parameter that the chains accept only as text (`search`) is used as that text, and is absent otherwise |
| Validation.StepErrors | routes/productRoutes.js:21-25 | the checks of one chain all run; an error with a step's message is recorded exactly when that step's check fails |
| Validation.Failures | routes/productRoutes.js:21-25 | a check records no error exactly when the value passes it, at most one for a value that is not an array, and at most one per element for an array under a standard check |
| Validation.Rejected | routes/productRoutes.js:21-25 | the number of elements a check rejects is zero exactly when it accepts them all, and the whole length exactly when it rejects them all |
| Validation.StandardRejections | routes/productRoutes.js:19-42 | `notEmpty`, `isFloat`, `isIn` and `isBoolean` reject an array exactly when one of its elements fails, so an empty array passes them, and reject any other value when it fails itself |
| Validation.ElementErrors | routes/productRoutes.js:35-38 | a wildcard chain records, for each array element, the errors of that element, each pointing at `name[i]` |
| Validation.RunChains | middlewares/validateRequest.js:4-5 | `validationResult(req)` after a route's chains ran: every chain's errors, chain after chain; its meaning is stated by Validation.NoErrorsIffChainsPass, RunChainsMembers, RunChainsAppend and RunChainsCons |
| Validation.NoErrorsIffChainsPass | middlewares/validateRequest.js:4-5 | the result is empty exactly when every chain of the list records nothing |
| Validation.ChainErrors | routes/productRoutes.js:31-38 | every error a chain records points at the value the chain selects |
| Validation.RunChainsMembers | routes/productRoutes.js:18-43 | all chains run: an error is recorded exactly when some chain of the list records it |
| Validation.RunChainsAppend | routes/productRoutes.js:18-43 | running two chain lists one after the other records the first list's errors, then the second's |
| Validation.RunChainsCons | routes/productRoutes.js:85 | a chain followed by a list records the chain's errors, then the list's |
| Validation.OneStepChain | routes/productRoutes.js:39-42 | a one-check chain records nothing when it is optional and the value is `undefined`; otherwise it records its message once per value the check rejects, so an error is recorded exactly when the check fails |
| Validation.TwoStepChain | routes/productRoutes.js:21-25 | both checks of a two-check chain run, the first one's errors first, and each failing one records its own message |
| Validation.EachElementErrors | routes/productRoutes.js:35-38 | a wildcard chain flags element `i` exactly when the value is an array, `i` is within it, and that element fails the check |
| Validation.SoleOwner | routes/productRoutes.js:18-43 | when only one chain of a list selects a value, the errors pointing at that value are exactly that chain's errors |
| Validation.SoleFieldFlag | routes/productRoutes.js:18-43 | in a list where no two chains select the same value, a field is flagged with a step's message exactly when that step rejects it, unless `optional()` skips an undefined value |
| Validation.SoleFieldUnflagged | routes/productRoutes.js:44-67 | a message that no step of the only chain selecting a field carries is never recorded for that field |
| Validation.SoleElementFlag | routes/productRoutes.js:35-38 | in such a list, element `i` under a one-check wildcard chain is flagged exactly when it exists and fails the check |
| ValidateRequest.Details | middlewares/validateRequest.js:9-12 | one `{ field, message }` entry per error, in order; entry `i` holds error `i`'s rendered path (`param`, as express-validator 6 sets it) and its message (`msg`) |
| ValidateRequest.Middleware | middlewares/validateRequest.js:3-17 | `next()` exactly when there are no errors; otherwise 422 "Validation failed", with entry `i` of `details` naming error `i`'s path and message |
| ValidateRequest.DetailsAppend | middlewares/validateRequest.js:9-12 | the details of concatenated error lists are the concatenated details |
| AuthMiddleware.HeaderToken | middlewares/authMiddleware.js:5-8 | a header token exists exactly when the header starts with `"Bearer "`; it is the space-free word right after the prefix |
| AuthMiddleware.ChooseToken | middlewares/authMiddleware.js:10-14 | a non-empty header token wins; otherwise a non-empty cookie; otherwise no token |
| AuthMiddleware.VerifyFirebaseToken | middlewares/authMiddleware.js:3-28 | no token gives 401 "No token provided"; a rejected token gives 401 "Invalid or expired token"; authenticated exactly when the provider accepts the token, with its uid and the email, or `null` when the email is empty |
| Pipeline.Admit | routes/categoryRoutes.js:52-58 | the controller is reached exactly when the token check passes (if the route has one) and the chains record nothing (if the route enforces them); an auth failure answers with the 401, any other block with the 422 |
| ProductRoutes.Config | routes/productRoutes.js:70-113 | the router as written; its table is stated by ProductRoutes.ConfigTable |
| ProductRoutes.ConfigTable | routes/productRoutes.js:70-113 | no route verifies a token, only the two GET routes run `validateRequest`, and each route has its own chain list (create, update, id, list query) |
| ProductRoutes.GuardedConfig | routes/productRoutes.js:90-113 | the corrected router keeps each route's chains, authenticates every write route, and enforces every route |
| ProductRoutes.Serve | routes/productRoutes.js:70-113 | a blocked request is answered without touching the store; an admitted one runs its controller |
| ProductRoutes.Handle | routes/productRoutes.js:70-113 | the GET routes never write, answer 422 exactly when their chains record an error, and otherwise give the controller's reply; the write routes equal their controller whatever the token and the chains say |
| ProductRoutes.GuardedHandle | routes/productRoutes.js:91-113 | through the corrected router the store changes only for a verified caller whose request the chains accept; an unverified write gets the 401 and no write |
| ProductRoutes.ProductListsSelective | routes/productRoutes.js:18-67 | no two chains of the create list, and no two of the update list, select the same value |
| ProductRoutes.CreateFlagsMissingText | routes/productRoutes.js:19-20 | the create rules flag name and description exactly when they, or one of their elements when they are arrays, are empty; `[]` is not flagged |
| ProductRoutes.CreateFlagsPrice | routes/productRoutes.js:21-25 | the create rules flag "Price is required" exactly when price is empty, and the positive-number message exactly when it is not a positive number by `isFloat`'s own reading (`Env.floatText`, not `Number`'s); an array is judged element by element |
| ProductRoutes.CreateFlagsCategory | routes/productRoutes.js:26-30 | the create rules require a category and flag one outside hibachi, sushi, side, appetizer; an array is judged element by element, so `["sushi"]` passes |
| ProductRoutes.CreateFlagsImages | routes/productRoutes.js:31-38 | a present `imageUrls` is flagged exactly when it is not an array with at least one element; element `i` is flagged exactly when it fails the URL check |
| ProductRoutes.CreateFlagsAvailability | routes/productRoutes.js:39-42 | a present `isAvailable` is flagged exactly when it, or an element of it when it is an array, is not boolean-like |
| ProductRoutes.IdFlags | routes/productRoutes.js:46 | the update and id rules flag the id exactly when it is empty, and the id rules flag nothing else |
| ProductRoutes.UpdateFlagsPriceCategory | routes/productRoutes.js:47-54 | the update rules flag price only when it is present and not a positive number by `isFloat`'s own reading, and category only when it is present and not one of the four; neither is required |
| ProductRoutes.UpdateFlagsImages | routes/productRoutes.js:55-62 | the update rules accept any array, even an empty one, as `imageUrls`, and flag each element that fails the URL check |
| ProductRoutes.UpdateFlagsAvailability | routes/productRoutes.js:63-66 | the update rules flag a present `isAvailable` exactly when it is not boolean-like |
| ProductRoutes.ListQueryErrors | routes/productRoutes.js:72-78 | the list query records "Invalid category filter" once per rejected category value (none exactly when it passes), then the default message exactly for a present non-text search |
| ProductRoutes.GetRejectsEmptyId | routes/productRoutes.js:83-88 | an empty id is answered 422 with the single `id` detail, without a read |
| ProductRoutes.ListRejectsUnknownCategory | routes/productRoutes.js:70-81 | a category filter outside the four (for a repeated parameter, one element outside them) is answered 422, with "Invalid category filter" first, before any read |
| ProductRoutes.ListShowsStore | routes/productRoutes.js:70-81 | without query parameters the list answers 200 with exactly the stored products, each with its id |
| ProductRoutes.ListSearchesStore | routes/productRoutes.js:70-81 | with a text term the list answers with exactly the stored products that mention it, ignoring case |
| ProductRoutes.ListAccepted | routes/productRoutes.js:72-78 | a category filter with no element outside the four is truthy and passes the list chains |
| ProductRoutes.ListFiltersStore | routes/productRoutes.js:70-81 | with an accepted category filter and no term, the list answers 200 with exactly the stored products whose category equals the filter value |
| ProductRoutes.RepeatedCategoryListsNothing | routes/productRoutes.js:70-81 | `?category=sushi&category=sushi` passes the chains but queries for a category equal to the array, so over text categories the list is empty |
| ProductRoutes.OpenCreateStoresUnchecked | routes/productRoutes.js:91-97 | as written, a tokenless create whose name and price the chains flag still answers 201 and stores the empty name and the negative price |
| ProductRoutes.GuardedCreateRejectsUnchecked | routes/productRoutes.js:91-97 | through the corrected router that request is answered 401 and nothing is stored |
| CategoryRoutes.Handle | routes/categoryRoutes.js:37-74 | the reads never write, answer 422 exactly on a chain error, and otherwise give the controller's reply; a write changes the store only for a verified caller whose request the chains accept; it answers 401 without a verified token and 422 on a chain error, before the controller |
| CategoryRoutes.Config | routes/categoryRoutes.js:37-74 | every category route runs `validateRequest`, and exactly the three write routes run `verifyFirebaseToken` first |
| CategoryRoutes.CategoryListsSelective | routes/categoryRoutes.js:19-34 | no two chains of the create list, and no two of the update list, select the same value |
| CategoryRoutes.CreateFlags | routes/categoryRoutes.js:19-25 | the create rules flag a name that is empty, or holds an empty element; `[]` is not flagged; and a present non-text description |
| CategoryRoutes.UpdateFlags | routes/categoryRoutes.js:27-34 | the update rules flag an empty id, a present non-text name and a present non-text description; a missing name is not flagged |
| CategoryRoutes.IdAndListErrors | routes/categoryRoutes.js:39-46 | the id rules flag exactly an empty id; the list rules flag exactly a present non-text search |
| CategoryRoutes.EmptyIdWriteRejected | routes/categoryRoutes.js:60-74 | a verified update or delete with an empty id is answered 422 with the id detail, and nothing is written |
| CategoryRoutes.ListShowsStore | routes/categoryRoutes.js:37-42 | without a term the list answers 200 with exactly the stored categories, each with its id |
| CategoryRoutes.ListSearchesStore | routes/categoryRoutes.js:37-42 | with a text term the list answers with exactly the stored categories that mention it, ignoring case |
| RoundTrips.ProductCreateThenGet | controllers/productController.js:58-85 | a created product reads back under the returned id, with the text fields as sent, and with a numeric price, an array of URLs and a boolean availability unchanged |
| RoundTrips.TextFalseStoredAvailable | controllers/productController.js:73 | a create with `isAvailable` set to the text "false" stores `true` |
| RoundTrips.ProductUpdateThenGet | controllers/productController.js:88-121 | after an update a read shows the sent fields, the new `updatedAt`, and every other field as before |
| RoundTrips.ProductDeleteThenGet | controllers/productController.js:124-141 | after a delete the id reads 404, and every other id reads as before |
| RoundTrips.CategoryCreateThenGet | controllers/categoryController.js:54-73 | a created category reads back with its name as sent and its description, or `""` when the sent one is falsy |
| RoundTrips.CategoryUpdateThenGet | controllers/categoryController.js:76-102 | after an update a read shows the sent name and description, and every other field as before |
| RoundTrips.CategoryDeleteThenGet | controllers/categoryController.js:105-122 | after a delete the id reads 404 |

## Left out

- Firestore and Firebase Auth. They are not called; the collection is a map, the list handlers' snapshot is a parameter, and the provider's verdict on a token is the function `Env.verifyIdToken`. The store's and provider's own failures (unreachable service, timeouts) and the `try`/`catch` around them are not modelled. The only modelled exceptions are the search's `toLowerCase` on non-text and the store's refusal of `undefined` fields.
- Asynchrony and concurrency. Each request runs alone, and the existence check and the write happen together.
- Document order. The snapshot's order is whatever the store gives, and the model takes it as given.
- JsValues.ToNumber: reading a string as a number is left to `Env.numeral`, because the full JavaScript numeral grammar is not modelled. Arrays are read through their text form as JavaScript does. JavaScript numbers are modelled as exact reals: there is no `Infinity` or `-Infinity` (so a JSON `1e999` or the text `"Infinity"`, which `Number` reads as `Infinity`, cannot be represented), no `-0` and no double-precision rounding.
- ValidateRequest.Details: `field` is the error's `param`, which express-validator 6 sets to the rendered path. Version 7 renamed it to `path`, so under 7 every `field` would be `undefined` and drop out of the JSON. package.json is not part of this model, so the version is unknown; the model assumes 6.
- Validation.ChainErrors: `isURL()` is the parameter `Env.isUrl`, and `isFloat()`'s reading of a text is the parameter `Env.floatText`, its own grammar, separate from `Number`'s `Env.numeral`. As in express-validator, the standard checks (`notEmpty`, `isFloat`, `isIn`, `isBoolean`, `isURL`) judge each element of an array value, in the body and in the query alike, and record one error per rejected element; `isArray` and `isString` judge the value whole. An array nested inside an array value is judged by its shape: only `[]` reads as empty, and it is not a number, a listed option or a boolean. This matches neither library version exactly: express-validator 6 reads such an element through its first element, and 7 through its comma-joined text. A wildcard chain over a non-array records nothing.
- JsValues.Lower: `toLowerCase` folds ASCII letters only; Unicode case mapping is not modelled.
- `Date.prototype.toISOString`. The timestamp is the text `Env.now`.
- The 401 log line (`console.error`), the Express 404 handler and the generic 500 error handler of index.js. `next(err)` is the outcome `ErrorForwarded`. index.js is not part of this model, and its mounting of the routers is commented out.
- config/firebaseAdmin.js. It holds credentials and initialisation only.
- Cookie parsing. The `token` cookie arrives already parsed, as optional text.
- The `:id` parameter. Express never matches an empty path segment, so the empty-id branch of the id chains is unreachable over HTTP. The model states it anyway.

## Findings

| source | as written | input that shows it | evidently intended | confidence | as-written member | corrected member |
|---|---|---|---|---|---|---|
| routes/productRoutes.js:91-113 | the product write routes have `verifyFirebaseToken` and `validateRequest` commented out, so any caller's request reaches the controller and the chains' errors are ignored | a `POST /api/products` with no token and body `{ name: "", description: "", price: -1, category: "pizza" }` answers 201 and stores the product | token verification and `validateRequest` on every write route, as on the category router and as the "Protected routes (admin only)" comment says | medium, not executed | ProductRoutes.OpenCreateStoresUnchecked | ProductRoutes.GuardedCreateRejectsUnchecked |

=== FILE: auth_middleware.dfy ===
/** `verifyFirebaseToken`: finds the caller's token in the
    `Authorization: Bearer` header or, failing that, the `token` cookie,
    has the identity provider verify it, and records who the caller is. */
module AuthMiddleware {
  import opened JsValues
  import opened Http
  import opened Runtime

  const BearerPrefix := "Bearer "

  const NoToken := "Unauthorized: No token provided"
  const BadToken := "Unauthorized: Invalid or expired token"

  /** `req.user`: the verified uid and the email, `null` when the provider
      gave none or an empty one. */
  datatype User = User(uid: string, email: Option<string>)

  /** The result of the middleware: `next()` with `req.user` set, or a 401. */
  datatype Outcome = Authenticated(user: User) | Unauthorized(response: Response)

  /** `authHeader.startsWith("Bearer ") ? authHeader.split(" ")[1] : null`,
      with a missing header read as `""`. The token is the word after the
      prefix, up to the next space. */
  function HeaderToken(authorization: Option<string>): (t: Option<string>)
    ensures var header := if authorization.Some? then authorization.value else "";
            && (t.Some? <==> StartsWith(header, BearerPrefix))
            && (t.Some? ==>
                  && ' ' !in t.value
                  && StartsWith(header[|BearerPrefix|..], t.value)
                  && (|header| == |BearerPrefix| + |t.value| || header[|BearerPrefix| + |t.value|] == ' '))
  {
    var header := if authorization.Some? then authorization.value else "";
    if StartsWith(header, BearerPrefix) then
      var rest := header[|BearerPrefix|..];
      assert header == "Bearer" + [' '] + rest;
      SplitAfterWord("Bearer", ' ', rest);
      SplitFirstPiece(rest, ' ');
      Some(Split(header, ' ')[1])
    else None
  }

  /** `tokenFromHeader || req.cookies?.token`, with the `!token` test
      folded in: `None` when neither source gives a non-empty token. */
  function ChooseToken(fromHeader: Option<string>, cookie: Option<string>): (t: Option<string>)
    ensures t.Some? ==> t.value != ""
    ensures fromHeader.Some? && fromHeader.value != "" ==> t == fromHeader
    ensures !(fromHeader.Some? && fromHeader.value != "") ==>
              t == (if cookie.Some? && cookie.value != "" then cookie else None)
  {
    if fromHeader.Some? && fromHeader.value != "" then fromHeader
    else if cookie.Some? && cookie.value != "" then cookie
    else None
  }

  /** The token the middleware verifies, if any. */
  function RequestToken(req: Request): Option<string> {
    ChooseToken(HeaderToken(req.authorization), req.tokenCookie)
  }

  /** The middleware. */
  function VerifyFirebaseToken(req: Request, env: Env): (o: Outcome)
    ensures RequestToken(req).None? ==> o == Unauthorized(Response(401, ErrorBody(NoToken)))
    ensures forall t :: RequestToken(req) == Some(t) && env.verifyIdToken(t).None? ==>
              o == Unauthorized(Response(401, ErrorBody(BadToken)))
    ensures o.Authenticated? <==>
              RequestToken(req).Some? && env.verifyIdToken(RequestToken(req).value).Some?
    ensures forall t, c :: RequestToken(req) == Some(t) && env.verifyIdToken(t) == Some(c) ==>
              o.user.uid == c.uid
              && o.user.email == (if c.email.Some? && c.email.value != "" then c.email else None)
  {
    match RequestToken(req)
    case None => Unauthorized(Response(401, ErrorBody(NoToken)))
    case Some(token) =>
      match env.verifyIdToken(token)
      case None => Unauthorized(Response(401, ErrorBody(BadToken)))
      case Some(claims) =>
        Authenticated(User(claims.uid,
          if claims.email.Some? && claims.email.value != "" then claims.email else None))
  }
}

=== FILE: category_controller.dfy ===
/** The five handlers of the `categories` collection. */
module CategoryController {
  import opened JsValues
  import opened Seqs
  import opened Documents
  import opened Http
  import opened Runtime
  import opened Search
  import Crud

  const Texts := Crud.Messages(
    "Category not found",
    "Category created successfully",
    "Category updated successfully",
    "Category deleted successfully")

  /** The body fields the update handler copies. */
  const Editable: set<Field> := {"name", "description"}

  /** `GET /api/categories?search=` over the collection's snapshot `docs`. */
  function GetCategories(docs: seq<Doc>, search: Option<string>): (r: Reply)
    ensures r.Send? ==> r.response.status == 200 && r.response.payload.ListBody?
                        && r.response.payload.key == "categories"
    ensures r.Send? ==> IsSubsequence(r.response.payload.items, Views(docs))
    ensures search.None? || search == Some("") ==>
              r == Send(Response(200, ListBody("categories", Views(docs))))
    ensures forall t :: search == Some(t) && t != "" && r.Send? ==>
              forall x :: x in r.response.payload.items <==> x in Views(docs) && Mentions(x, Lower(t))
    ensures forall t :: search == Some(t) && t != "" && r.Send? ==>
              forall x :: multiset(r.response.payload.items)[x] ==
                if Mentions(x, Lower(t)) then multiset(Views(docs))[x] else 0
    ensures r.ErrorForwarded? <==>
              exists t :: search == Some(t) && t != "" && exists x :: x in Views(docs) && Judge(x, Lower(t)) == Throws
  {
    match ApplySearch(Views(docs), search)
    case None => ErrorForwarded
    case Some(found) => Send(Response(200, ListBody("categories", found)))
  }

  /** `GET /api/categories/:id`. */
  function GetCategoryById(store: Store, id: Id): (h: Handled)
    ensures h.store == store
    ensures id !in store ==> h.reply == Send(Response(404, ErrorBody("Category not found")))
    ensures id in store ==>
              h.reply.Send? && h.reply.response.status == 200 && h.reply.response.payload.RecordBody?
    ensures id in store ==>
              var fields := h.reply.response.payload.fields;
              && fields.Keys == store[id].Keys + {IdField}
              && (forall f :: f in store[id] ==> fields[f] == store[id][f])
              && (IdField !in store[id] ==> fields[IdField] == Some(Str(id)))
  {
    Crud.FindById(Texts, store, id)
  }

  /** The document `createCategory` adds: the name as given, a falsy
      description replaced by `""`, and both timestamps set to the same
      instant. */
  function NewCategory(body: map<string, Value>, env: Env): (rec: Record)
    ensures rec.Keys == {"name", "description", CreatedAt, UpdatedAt}
    ensures rec["name"] == Lookup(body, "name")
    ensures TruthyField(Lookup(body, "description")) ==> rec["description"] == Lookup(body, "description")
    ensures !TruthyField(Lookup(body, "description")) ==> rec["description"] == Some(Str(""))
    ensures rec[CreatedAt] == rec[UpdatedAt] == Some(Str(env.now))
  {
    var description := Lookup(body, "description");
    map[
      "name" := Lookup(body, "name"),
      "description" := if TruthyField(description) then description else Some(Str("")),
      CreatedAt := Some(Str(env.now)),
      UpdatedAt := Some(Str(env.now))
    ]
  }

  /** `POST /api/categories`: adds the new document under a fresh id and
      answers 201 with that id. A body without a name leaves it
      `undefined`, which the store refuses. */
  function CreateCategory(store: Store, body: map<string, Value>, env: Env): (h: Handled)
    requires env.freshId !in store
    ensures "name" !in body ==> h == Handled(ErrorForwarded, store)
    ensures "name" in body ==>
              && h.reply == Send(Response(201, CreatedBody(env.freshId, "Category created successfully")))
              && h.store.Keys == store.Keys + {env.freshId}
              && (forall id :: id in store ==> h.store[id] == store[id])
              && h.store[env.freshId] == NewCategory(body, env)
  {
    Crud.Insert(Texts, store, env.freshId, NewCategory(body, env))
  }

  /** The `updates` object of `updateCategory`: `updatedAt`, plus `name`
      and `description` when they are not `undefined`. */
  function CategoryPatch(body: map<string, Value>, env: Env): (p: Record)
    ensures p.Keys == {UpdatedAt} + (Editable * body.Keys)
    ensures p[UpdatedAt] == Some(Str(env.now))
    ensures forall f :: f in Editable && f in body ==> p[f] == Some(body[f])
  {
    var u := map[UpdatedAt := Some(Str(env.now))];
    var u := if "name" in body then u["name" := Some(body["name"])] else u;
    var u := if "description" in body then u["description" := Some(body["description"])] else u;
    u
  }

  /** `PUT /api/categories/:id`: 404 without a write when the id is not
      stored; otherwise only `updatedAt` and the defined `name` and
      `description` change. */
  function UpdateCategory(store: Store, id: Id, body: map<string, Value>, env: Env): (h: Handled)
    ensures id !in store ==> h == Handled(Send(Response(404, ErrorBody("Category not found"))), store)
    ensures id in store ==> h.reply == Send(Response(200, MessageBody("Category updated successfully")))
    ensures h.store.Keys == store.Keys
    ensures forall other :: other in store && other != id ==> h.store[other] == store[other]
    ensures id in store ==>
              && h.store[id].Keys == store[id].Keys + {UpdatedAt} + (Editable * body.Keys)
              && h.store[id][UpdatedAt] == Some(Str(env.now))
              && (forall f :: f in store[id] && f != UpdatedAt && !(f in Editable && f in body) ==>
                    h.store[id][f] == store[id][f])
              && (forall f :: f in Editable && f in body ==> h.store[id][f] == Some(body[f]))
  {
    Crud.PatchById(Texts, store, id, CategoryPatch(body, env))
  }

  /** `DELETE /api/categories/:id`. */
  function DeleteCategory(store: Store, id: Id): (h: Handled)
    ensures id !in store ==> h == Handled(Send(Response(404, ErrorBody("Category not found"))), store)
    ensures id in store ==> h.reply == Send(Response(200, MessageBody("Category deleted successfully")))
    ensures h.store.Keys == store.Keys - {id}
    ensures forall other :: other in h.store ==> h.store[other] == store[other]
  {
    Crud.RemoveById(Texts, store, id)
  }
}

=== FILE: category_routes.dfy ===
/** The `categories` router: its validation chains and, per route, the
    handlers that run before the controller. Every write route verifies
    the caller's token first and enforces its chains' result. */
module CategoryRoutes {
  import opened JsValues
  import opened Documents
  import opened Http
  import opened Runtime
  import opened Validation
  import opened Pipeline
  import opened Search
  import AuthMiddleware
  import CategoryController
  import ValidateRequest

  const DescriptionMessage := "Description must be a string"

  // Chains of `createCategoryValidators`.
  const NameRequired := Chain(InBody, Field("name"), false, [Step(NotEmpty, "Name is required")])
  const DescriptionText := Chain(InBody, Field("description"), true, [Step(IsString, DescriptionMessage)])

  // Chains of `updateCategoryValidators` and of the id routes.
  const CategoryIdRequired := Chain(InParams, Field("id"), false, [Step(NotEmpty, "Category id is required")])
  const NameText := Chain(InBody, Field("name"), true, [Step(IsString, "Name must be a string")])

  // The list route's query.
  const SearchText := Chain(InQuery, Field("search"), true, [Step(IsString, DefaultMessage)])

  const CreateCategoryValidators: seq<Chain> := [NameRequired, DescriptionText]

  const UpdateCategoryValidators: seq<Chain> := [CategoryIdRequired, NameText, DescriptionText]

  const ListQueryValidators: seq<Chain> := [SearchText]

  const IdValidators: seq<Chain> := [CategoryIdRequired]

  datatype Route = ListCategories | GetCategory | CreateCategory | UpdateCategory | DeleteCategory

  predicate IsWrite(r: Route) {
    r.CreateCategory? || r.UpdateCategory? || r.DeleteCategory?
  }

  /** Every route runs `validateRequest`; the write routes run
      `verifyFirebaseToken` before their chains. */
  function Config(r: Route): (cfg: RouteConfig)
    ensures cfg.enforce
    ensures cfg.authenticate <==> IsWrite(r)
  {
    match r
    case ListCategories => RouteConfig(false, ListQueryValidators, true)
    case GetCategory => RouteConfig(false, IdValidators, true)
    case CreateCategory => RouteConfig(true, CreateCategoryValidators, true)
    case UpdateCategory => RouteConfig(true, UpdateCategoryValidators, true)
    case DeleteCategory => RouteConfig(true, IdValidators, true)
  }

  /** The controller a route ends in. */
  function Controller(r: Route, req: Request, store: Store, snapshot: seq<Doc>, env: Env): Handled
    requires r.CreateCategory? ==> env.freshId !in store
  {
    match r
    case ListCategories => Handled(CategoryController.GetCategories(snapshot, QueryText(req, "search")), store)
    case GetCategory => CategoryController.GetCategoryById(store, req.id)
    case CreateCategory => CategoryController.CreateCategory(store, req.body, env)
    case UpdateCategory => CategoryController.UpdateCategory(store, req.id, req.body, env)
    case DeleteCategory => CategoryController.DeleteCategory(store, req.id)
  }

  /** A request to the `categories` router over the collection `store`
      whose current snapshot is `snapshot`. Reads never write; a write
      without a verified token is answered 401, one the chains flag is
      answered 422, both before the controller runs. */
  function Handle(r: Route, req: Request, store: Store, snapshot: seq<Doc>, env: Env): (h: Handled)
    requires Enumerates(snapshot, store)
    requires r.CreateCategory? ==> env.freshId !in store
    ensures !IsWrite(r) ==> h.store == store
    ensures !IsWrite(r) ==>
              (RunChains(Config(r).validators, req, env) != [] <==> h.reply.Send? && h.reply.response.status == 422)
    ensures !IsWrite(r) && RunChains(Config(r).validators, req, env) == [] ==>
              h == Controller(r, req, store, snapshot, env)
    ensures h.store != store ==>
              && IsWrite(r)
              && AuthMiddleware.VerifyFirebaseToken(req, env).Authenticated?
              && RunChains(Config(r).validators, req, env) == []
    ensures IsWrite(r) && AuthMiddleware.VerifyFirebaseToken(req, env).Unauthorized? ==>
              h == Handled(Send(AuthMiddleware.VerifyFirebaseToken(req, env).response), store)
    ensures IsWrite(r) && AuthMiddleware.VerifyFirebaseToken(req, env).Authenticated?
            && RunChains(Config(r).validators, req, env) != [] ==>
              h == Handled(Send(ValidateRequest.Middleware(RunChains(Config(r).validators, req, env)).response), store)
    ensures IsWrite(r) && AuthMiddleware.VerifyFirebaseToken(req, env).Authenticated?
            && RunChains(Config(r).validators, req, env) == [] ==>
              h == Controller(r, req, store, snapshot, env)
  {
    match Admit(Config(r), req, env)
    case Blocked(resp) => Handled(Send(resp), store)
    case Admitted(_, _) => Controller(r, req, store, snapshot, env)
  }

  /** Each chain of the create and update lists selects a value no other
      chain of its list selects. */
  lemma CategoryListsSelective()
    ensures Selective(CreateCategoryValidators)
    ensures Selective(UpdateCategoryValidators)
  {
  }

  /** `createCategoryValidators` flag an empty name, and a description
      that is present but not text. */
  lemma CreateFlags(req: Request, env: Env)
    ensures var errs := RunChains(CreateCategoryValidators, req, env);
            var description := BodyField(req, "description");
            && (FieldError(InBody, Key("name"), "Name is required") in errs <==>
                HasEmptyText(BodyField(req, "name")))
            && (FieldError(InBody, Key("description"), DescriptionMessage) in errs <==>
                description.Some? && !description.value.Str?)
  {
    StandardRejections(BodyField(req, "name"), [], env);
    CategoryListsSelective();
    SoleFieldFlag(CreateCategoryValidators, 0, 0, req, env);
    SoleFieldFlag(CreateCategoryValidators, 1, 0, req, env);
  }

  /** `updateCategoryValidators` flag an empty id, and a name or a
      description that is present but not text; an absent name is fine. */
  lemma UpdateFlags(req: Request, env: Env)
    ensures var errs := RunChains(UpdateCategoryValidators, req, env);
            var name := BodyField(req, "name");
            var description := BodyField(req, "description");
            && (FieldError(InParams, Key("id"), "Category id is required") in errs <==> req.id == "")
            && (FieldError(InBody, Key("name"), "Name must be a string") in errs <==> name.Some? && !name.value.Str?)
            && (FieldError(InBody, Key("name"), "Name is required") !in errs)
            && (FieldError(InBody, Key("description"), DescriptionMessage) in errs <==>
                description.Some? && !description.value.Str?)
  {
    CategoryListsSelective();
    SoleFieldFlag(UpdateCategoryValidators, 0, 0, req, env);
    SoleFieldFlag(UpdateCategoryValidators, 1, 0, req, env);
    SoleFieldUnflagged(UpdateCategoryValidators, 1, "Name is required", req, env);
    SoleFieldFlag(UpdateCategoryValidators, 2, 0, req, env);
  }

  /** The id routes flag exactly an empty id; the list route flags exactly
      a present search that is not text. */
  lemma IdAndListErrors(req: Request, env: Env)
    ensures RunChains(IdValidators, req, env) ==
              if req.id == "" then [FieldError(InParams, Key("id"), "Category id is required")] else []
    ensures var search := QueryField(req, "search");
            RunChains(ListQueryValidators, req, env) ==
              if search.Some? && !search.value.Str? then [FieldError(InQuery, Key("search"), DefaultMessage)] else []
  {
    RunChainsCons(CategoryIdRequired, [], req, env);
    RunChainsCons(SearchText, [], req, env);
    OneStepChain(InParams, "id", false, Step(NotEmpty, "Category id is required"), req, env);
    OneStepChain(InQuery, "search", true, Step(IsString, DefaultMessage), req, env);
  }

  /** A write route with an empty id, reached with a verified token, is
      answered 422 and nothing changes: the id check runs before the
      controller. */
  lemma EmptyIdWriteRejected(r: Route, req: Request, store: Store, snapshot: seq<Doc>, env: Env)
    requires Enumerates(snapshot, store)
    requires r.UpdateCategory? || r.DeleteCategory?
    requires req.id == ""
    requires AuthMiddleware.VerifyFirebaseToken(req, env).Authenticated?
    ensures var h := Handle(r, req, store, snapshot, env);
            && h.store == store
            && h.reply.Send? && h.reply.response.status == 422
            && Detail("id", "Category id is required") in h.reply.response.payload.details
  {
    var errs := RunChains(Config(r).validators, req, env);
    var e := FieldError(InParams, Key("id"), "Category id is required");
    assert e in errs by {
      if r.UpdateCategory? {
        UpdateFlags(req, env);
      } else {
        IdAndListErrors(req, env);
      }
    }
    var h := Handle(r, req, store, snapshot, env);
    assert h == Handled(Send(ValidateRequest.Middleware(errs).response), store);
    var i :| 0 <= i < |errs| && errs[i] == e;
    assert h.reply.response.payload.details[i] == Detail("id", "Category id is required");
  }

  /** Without a search term the list route answers with every stored
      category, each with its id. */
  lemma ListShowsStore(req: Request, store: Store, snapshot: seq<Doc>, env: Env)
    requires Enumerates(snapshot, store)
    requires QueryField(req, "search").None?
    ensures var h := Handle(ListCategories, req, store, snapshot, env);
            && h.reply.Send? && h.reply.response.status == 200
            && forall x :: x in h.reply.response.payload.items <==>
                 exists id :: id in store && x == View(Doc(id, store[id]))
  {
    IdAndListErrors(req, env);
    SnapshotViews(snapshot, store);
  }

  /** With a text search term the list route answers with exactly the
      stored categories whose name or description mentions it, ignoring
      case, unless one of them makes the search throw. */
  lemma ListSearchesStore(req: Request, store: Store, snapshot: seq<Doc>, env: Env, t: string)
    requires Enumerates(snapshot, store)
    requires QueryField(req, "search") == Some(Str(t)) && t != ""
    ensures var h := Handle(ListCategories, req, store, snapshot, env);
            h.reply.Send? ==>
              && h.reply.response.status == 200 && h.reply.response.payload.ListBody?
              && forall x :: x in h.reply.response.payload.items <==>
                   (exists id :: id in store && x == View(Doc(id, store[id]))) && Mentions(x, Lower(t))
  {
    assert RunChains(ListQueryValidators, req, env) == [] by {
      IdAndListErrors(req, env);
    }
    assert QueryText(req, "search") == Some(t);
    assert Handle(ListCategories, req, store, snapshot, env) ==
             Handled(CategoryController.GetCategories(snapshot, Some(t)), store);
    SnapshotViews(snapshot, store);
  }
}

=== FILE: crud.dfy ===
/** The existence-checked single-document operations both controllers
    share: get, add, merge-patch update and delete, each answering 404 with
    the resource's own message when the id is not stored. */
module Crud {
  import opened JsValues
  import opened Documents
  import opened Http

  /** The response texts of one resource. */
  datatype Messages = Messages(notFound: string, created: string, updated: string, deleted: string)

  function NotFound(m: Messages): Response {
    Response(404, ErrorBody(m.notFound))
  }

  /** `GET /:id`: the stored fields together with the id. */
  function FindById(m: Messages, store: Store, id: Id): Handled {
    if id !in store then Handled(Send(NotFound(m)), store)
    else Handled(Send(Response(200, RecordBody(View(Doc(id, store[id]))))), store)
  }

  /** `collection.add(data)` under the id the store hands out; a field
      set to `undefined` makes `add` throw, and the handler passes the
      error on. */
  function Insert(m: Messages, store: Store, id: Id, data: Record): Handled {
    if Storable(data) then Handled(Send(Response(201, CreatedBody(id, m.created))), store[id := data])
    else Handled(ErrorForwarded, store)
  }

  /** `PUT /:id`: existence check, then `docRef.update(patch)`. */
  function PatchById(m: Messages, store: Store, id: Id, patch: Record): Handled {
    if id !in store then Handled(Send(NotFound(m)), store)
    else Handled(Send(Response(200, MessageBody(m.updated))), store[id := Merge(store[id], patch)])
  }

  /** `DELETE /:id`: existence check, then `docRef.delete()`. */
  function RemoveById(m: Messages, store: Store, id: Id): Handled {
    if id !in store then Handled(Send(NotFound(m)), store)
    else Handled(Send(Response(200, MessageBody(m.deleted))), store - {id})
  }
}

=== FILE: documents.dfy ===
/** The document store as the controllers see it: a collection maps
    document ids to records, and a record maps field names to values. */
module Documents {
  import opened JsValues
  import opened Seqs

  type Id = string
  type Field = string

  /** A stored document. A field written as `undefined` is kept as `None`. */
  type Record = map<Field, Option<Value>>

  /** One collection (`products` or `categories`). */
  type Store = map<Id, Record>

  /** A document of a query snapshot: its id and its data. */
  datatype Doc = Doc(id: Id, data: Record)

  const IdField: Field := "id"
  const CreatedAt: Field := "createdAt"
  const UpdatedAt: Field := "updatedAt"

  /** A record with no field set to `undefined`, which Firestore refuses.
      This is the only refusal of the store that is modelled. */
  predicate Storable(r: Record) {
    forall f :: f in r ==> r[f].Some?
  }

  /** Reads a field; a missing field and an `undefined` one both read as `None`. */
  function Get(r: Record, f: Field): Option<Value> {
    if f in r then r[f] else None
  }

  /** `{ id: doc.id, ...doc.data() }`: the spread comes after `id`, so a
      stored field named `id` wins over the document id. */
  function View(d: Doc): (v: Record)
    ensures v.Keys == d.data.Keys + {IdField}
    ensures forall f :: f in d.data ==> v[f] == d.data[f]
    ensures IdField !in d.data ==> v[IdField] == Some(Str(d.id))
  {
    map[IdField := Some(Str(d.id))] + d.data
  }

  /** The response shape of every document of a snapshot, in order. */
  function Views(docs: seq<Doc>): (vs: seq<Record>)
    ensures |vs| == |docs|
    ensures forall i :: 0 <= i < |docs| ==> vs[i] == View(docs[i])
  {
    seq(|docs|, i requires 0 <= i < |docs| => View(docs[i]))
  }

  /** Every response shape in `Views(docs)` is that of one of the docs. */
  lemma ViewsMembers(docs: seq<Doc>)
    ensures forall x :: x in Views(docs) <==> exists d :: d in docs && x == View(d)
  {
    forall x | x in Views(docs)
      ensures exists d :: d in docs && x == View(d)
    {
      var i :| 0 <= i < |docs| && Views(docs)[i] == x;
      assert docs[i] in docs;
    }
    forall d | d in docs
      ensures View(d) in Views(docs)
    {
      var i :| 0 <= i < |docs| && docs[i] == d;
      assert Views(docs)[i] == View(d);
    }
  }

  /** `docRef.update(patch)`: the patch's fields overwrite, every other
      stored field keeps its value. */
  function Merge(r: Record, patch: Record): (m: Record)
    ensures m.Keys == r.Keys + patch.Keys
    ensures forall f :: f in patch ==> m[f] == patch[f]
    ensures forall f :: f in r && f !in patch ==> m[f] == r[f]
  {
    r + patch
  }

  /** A document's field holds `v` (Firestore's `where(f, "==", v)`). */
  predicate FieldEquals(d: Doc, f: Field, v: Value) {
    Get(d.data, f) == Some(v)
  }

  /** `query.where(f, "==", v).get()` over a snapshot of the collection. */
  function WhereEquals(docs: seq<Doc>, f: Field, v: Value): (r: seq<Doc>)
    ensures IsSubsequence(r, docs)
    ensures forall d :: d in r <==> d in docs && FieldEquals(d, f, v)
    decreases |docs|
  {
    if docs == [] then []
    else if FieldEquals(docs[0], f, v) then [docs[0]] + WhereEquals(docs[1..], f, v)
    else
      var r := WhereEquals(docs[1..], f, v);
      assert docs == [docs[0]] + docs[1..];
      r
  }

  /** A value no document holds selects nothing. */
  lemma {:induction false} WhereEqualsNone(docs: seq<Doc>, f: Field, v: Value)
    requires forall d :: d in docs ==> !FieldEquals(d, f, v)
    ensures WhereEquals(docs, f, v) == []
    decreases |docs|
  {
    if docs != [] {
      assert docs[0] in docs;
      assert forall d :: d in docs[1..] ==> d in docs;
      WhereEqualsNone(docs[1..], f, v);
    }
  }

  /** `docs` is a snapshot of `store`: every stored document exactly once,
      with its current data, in the store's own order. */
  ghost predicate Enumerates(docs: seq<Doc>, store: Store) {
    && (forall i :: 0 <= i < |docs| ==> docs[i].id in store && store[docs[i].id] == docs[i].data)
    && (forall id :: id in store ==> exists i :: 0 <= i < |docs| && docs[i].id == id)
    && (forall i, j :: 0 <= i < j < |docs| ==> docs[i].id != docs[j].id)
  }

  /** In a snapshot, the response shapes are exactly those of the stored
      documents. */
  lemma SnapshotViews(docs: seq<Doc>, store: Store)
    requires Enumerates(docs, store)
    ensures forall x :: x in Views(docs) <==> exists id :: id in store && x == View(Doc(id, store[id]))
  {
    forall x | x in Views(docs)
      ensures exists id :: id in store && x == View(Doc(id, store[id]))
    {
      var i :| 0 <= i < |docs| && Views(docs)[i] == x;
      assert docs[i] == Doc(docs[i].id, store[docs[i].id]);
    }
    forall id | id in store
      ensures View(Doc(id, store[id])) in Views(docs)
    {
      var i :| 0 <= i < |docs| && docs[i].id == id;
      assert docs[i] == Doc(id, store[id]);
      assert Views(docs)[i] == View(Doc(id, store[id]));
    }
  }
}

=== FILE: http.dfy ===
/** Requests as the route handlers read them and the JSON responses they
    send. */
module Http {
  import opened JsValues
  import opened Documents

  /** The parts of an Express request the catalog routes read: the `:id`
      path segment, the parsed query string and JSON body, the
      `Authorization` header and the `token` cookie. */
  datatype Request = Request(
    id: string,
    query: map<string, Value>,
    body: map<string, Value>,
    authorization: Option<string>,
    tokenCookie: Option<string>)

  /** `req.body.<f>`; `None` when the field is `undefined`. */
  function BodyField(req: Request, f: string): Option<Value> {
    Lookup(req.body, f)
  }

  /** `req.query.<f>`; `None` when the parameter is absent. */
  function QueryField(req: Request, f: string): Option<Value> {
    Lookup(req.query, f)
  }

  /** A query parameter that the route's chains accept only as text
      (`isString()`), as the list handlers use it once accepted: its text,
      and absent otherwise. */
  function QueryText(req: Request, f: string): (t: Option<string>)
    ensures t.Some? <==> QueryField(req, f).Some? && QueryField(req, f).value.Str?
    ensures t.Some? ==> QueryField(req, f) == Some(Str(t.value))
  {
    match QueryField(req, f)
    case Some(Str(s)) => Some(s)
    case _ => None
  }

  /** One entry of a 422 response's `details`. */
  datatype Detail = Detail(field: string, message: string)

  /** The JSON bodies the routes send. */
  datatype Payload =
    | ErrorBody(error: string)
    | MessageBody(message: string)
    | CreatedBody(id: string, message: string)
    | ValidationBody(error: string, details: seq<Detail>)
    | ListBody(key: string, items: seq<Record>)
    | RecordBody(fields: Record)

  datatype Response = Response(status: int, payload: Payload)

  /** What a handler does with the request: answer it, or hand an exception
      to Express's error handler with `next(err)`. */
  datatype Reply = Send(response: Response) | ErrorForwarded

  /** A handler's reply and the collection as it stands afterwards. */
  datatype Handled = Handled(reply: Reply, store: Store)
}

/** The collaborators a request handler consults that are not part of this
    code: the clock, the store's id generator, the identity provider and
    the library checks the validators delegate to. */
module Runtime {
  import opened JsValues

  /** What the identity provider reports for an accepted token. */
  datatype Claims = Claims(uid: string, email: Option<string>)

  /** `now` is the ISO-8601 rendering of `new Date()`; `freshId` is the id
      the store assigns to the next added document; `verifyIdToken` is
      `None` when the provider rejects the token; `isUrl` is the library's
      URL check; `numeral` is `Number`'s reading of a string (`None` for
      `NaN`); `floatText` is the library's `isFloat` reading of a string
      (`None` when the text is not a float numeral in its grammar). */
  datatype Env = Env(
    now: string,
    freshId: string,
    verifyIdToken: string -> Option<Claims>,
    isUrl: string -> bool,
    numeral: string -> Option<real>,
    floatText: string -> Option<real>)
}

=== FILE: js_values.dfy ===
/** JavaScript values as the catalog handlers see them: parsed JSON request
    bodies, query strings and stored document fields, together with the few
    built-in string and number operations the handlers rely on. */
module JsValues {

  datatype Option<+T> = None | Some(value: T)

  /** A JSON-compatible JavaScript value. `undefined` is not a value here:
      a field that may be missing has type `Option<Value>` and is `None`
      when it is `undefined`. `NaN` is kept apart from the real numbers
      because `Number(...)` produces it for anything that is not a numeral. */
  datatype Value =
    | Null
    | Bool(b: bool)
    | Num(n: real)
    | NaN
    | Str(s: string)
    | Arr(items: seq<Value>)
    | Obj(fields: map<string, Value>)

  /** Reads a key of a parsed JSON object; `None` when it is `undefined`. */
  function Lookup(m: map<string, Value>, k: string): Option<Value> {
    if k in m then Some(m[k]) else None
  }

  /** `Array.isArray(v)`. */
  predicate IsArray(v: Option<Value>) {
    v.Some? && v.value.Arr?
  }

  /** JavaScript truthiness, as used by `if (v)` and `v || fallback`. */
  predicate Truthy(v: Value) {
    match v
    case Null => false
    case Bool(b) => b
    case Num(n) => n != 0.0
    case NaN => false
    case Str(s) => s != ""
    case Arr(_) => true
    case Obj(_) => true
  }

  /** Truthiness of a possibly `undefined` field (`undefined` is falsy). */
  predicate TruthyField(v: Option<Value>) {
    v.Some? && Truthy(v.value)
  }

  /** `Number(v)`. How a string is read as a numeral is left to `numeral`
      (`None` standing for `NaN`). An array is read through its text form,
      its elements joined by commas: `[]` and `[null]` read as 0, a single
      element is read as the element's own text would be, and two or more
      elements give a comma and so `NaN`. An object gives `NaN`. */
  function ToNumber(v: Option<Value>, numeral: string -> Option<real>): (r: Value)
    ensures r.Num? || r.NaN?
    ensures v.None? ==> r == NaN
    ensures forall n: real :: v == Some(Num(n)) ==> r == Num(n)
  {
    match v
    case None => NaN
    case Some(x) => NumberOf(x, numeral)
  }

  /** `Number(x)` for a defined value. */
  function NumberOf(x: Value, numeral: string -> Option<real>): (r: Value)
    ensures r.Num? || r.NaN?
    ensures x.Num? ==> r == x
    ensures x.Null? || x == Bool(false) || x == Arr([]) ==> r == Num(0.0)
    ensures x == Bool(true) ==> r == Num(1.0)
    ensures x.NaN? || x.Obj? ==> r == NaN
  {
    match x
    case Null => Num(0.0)
    case Bool(b) => Num(if b then 1.0 else 0.0)
    case Num(n) => Num(n)
    case NaN => NaN
    case Str(s) => (match numeral(s) case Some(n) => Num(n) case None => NaN)
    case Arr(items) =>
      if |items| == 0 then Num(0.0)
      else if |items| > 1 then NaN
      else
        // The text of a one-element array is the element's own text,
        // except that `null` joins as "" and a boolean as a non-numeral.
        (match items[0]
         case Null => Num(0.0)
         case Bool(_) => NaN
         case _ => NumberOf(items[0], numeral))
    case Obj(_) => NaN
  }

  /** `Number` of an array: `[]` and `[null]` read as 0, a single number,
      numeral text or nested array reads as that element alone would, a
      single boolean or object gives `NaN`, and so do two or more
      elements. */
  lemma ArrayNumber(items: seq<Value>, numeral: string -> Option<real>)
    ensures items == [] ==> ToNumber(Some(Arr(items)), numeral) == Num(0.0)
    ensures items == [Null] ==> ToNumber(Some(Arr(items)), numeral) == Num(0.0)
    ensures |items| == 1 && !items[0].Null? && !items[0].Bool? ==>
              ToNumber(Some(Arr(items)), numeral) == ToNumber(Some(items[0]), numeral)
    ensures |items| == 1 && (items[0].Bool? || items[0].Obj?) ==> ToNumber(Some(Arr(items)), numeral) == NaN
    ensures |items| >= 2 ==> ToNumber(Some(Arr(items)), numeral) == NaN
  {
  }

  /** The examples: `Number([])` is 0, `Number([7])` and `Number(["7"])`
      are 7 when the numeral reads "7" as 7, and `Number([1, 2])` is `NaN`. */
  lemma ArrayNumberExamples(numeral: string -> Option<real>)
    requires numeral("7") == Some(7.0)
    ensures ToNumber(Some(Arr([])), numeral) == Num(0.0)
    ensures ToNumber(Some(Arr([Num(7.0)])), numeral) == Num(7.0)
    ensures ToNumber(Some(Arr([Str("7")])), numeral) == Num(7.0)
    ensures ToNumber(Some(Arr([Arr([Null])])), numeral) == Num(0.0)
    ensures ToNumber(Some(Arr([Num(1.0), Num(2.0)])), numeral) == NaN
  {
  }

  // ---------------------------------------------------------------------
  // Strings

  /** ASCII `toLowerCase` on one character. */
  function LowerChar(c: char): char {
    if 'A' <= c <= 'Z' then (c as int + 32) as char else c
  }

  /** `s.toLowerCase()`, restricted to ASCII case folding. */
  function Lower(s: string): (r: string)
    ensures |r| == |s|
  {
    seq(|s|, i requires 0 <= i < |s| => LowerChar(s[i]))
  }

  /** Lower-casing twice is lower-casing once. */
  lemma LowerIdempotent(s: string)
    ensures Lower(Lower(s)) == Lower(s)
  {
    var l := Lower(s);
    forall i | 0 <= i < |s|
      ensures Lower(l)[i] == l[i]
    {
      assert LowerChar(LowerChar(s[i])) == LowerChar(s[i]);
    }
  }

  /** `s.startsWith(p)`. */
  predicate StartsWith(s: string, p: string) {
    |p| <= |s| && s[..|p|] == p
  }

  /** `needle` occurs in `hay` at position `i`. */
  predicate OccursAt(hay: string, needle: string, i: int) {
    0 <= i && i + |needle| <= |hay| && hay[i..i + |needle|] == needle
  }

  /** `hay.includes(needle)`, computed by scanning the start positions. */
  predicate Contains(hay: string, needle: string)
    decreases |hay|
  {
    StartsWith(hay, needle) || (|hay| > 0 && Contains(hay[1..], needle))
  }

  /** The scan finds exactly the occurrences: `Contains` holds iff the
      needle occurs at some position of the haystack. */
  lemma {:induction false} ContainsIffOccurs(hay: string, needle: string)
    ensures Contains(hay, needle) <==> exists i :: OccursAt(hay, needle, i)
    decreases |hay|
  {
    if StartsWith(hay, needle) {
      assert OccursAt(hay, needle, 0);
    } else if |hay| == 0 {
      assert |needle| > 0;
    } else {
      ContainsIffOccurs(hay[1..], needle);
      if exists i :: OccursAt(hay[1..], needle, i) {
        var i :| OccursAt(hay[1..], needle, i);
        assert hay[1..][i..i + |needle|] == hay[i + 1..i + 1 + |needle|];
        assert OccursAt(hay, needle, i + 1);
      }
      if exists i :: OccursAt(hay, needle, i) {
        var i :| OccursAt(hay, needle, i);
        assert i != 0;
        assert hay[1..][i - 1..i - 1 + |needle|] == hay[i..i + |needle|];
        assert OccursAt(hay[1..], needle, i - 1);
      }
    }
  }

  /** The longest prefix of `s` without `sep`. */
  function Word(s: string, sep: char): (w: string)
    ensures sep !in w
    ensures StartsWith(s, w)
    ensures |w| == |s| || s[|w|] == sep
    decreases |s|
  {
    if s == [] || s[0] == sep then [] else [s[0]] + Word(s[1..], sep)
  }

  /** `s.split(sep)` for a one-character separator: the pieces between
      separators, including empty ones. */
  function Split(s: string, sep: char): (parts: seq<string>)
    ensures |parts| >= 1
    ensures forall i :: 0 <= i < |parts| ==> sep !in parts[i]
    decreases |s|
  {
    if s == [] then [""]
    else if s[0] == sep then [""] + Split(s[1..], sep)
    else
      var rest := Split(s[1..], sep);
      [[s[0]] + rest[0]] + rest[1..]
  }

  /** `parts.join(sep)`. */
  function Join(parts: seq<string>, sep: char): string
    requires |parts| >= 1
    decreases |parts|
  {
    if |parts| == 1 then parts[0] else parts[0] + [sep] + Join(parts[1..], sep)
  }

  /** Splitting loses nothing: joining the pieces back gives the string. */
  lemma {:induction false} SplitJoin(s: string, sep: char)
    ensures Join(Split(s, sep), sep) == s
    decreases |s|
  {
    if s == [] {
    } else if s[0] == sep {
      SplitJoin(s[1..], sep);
      var rest := Split(s[1..], sep);
      assert Split(s, sep)[1..] == rest;
      assert s == [sep] + s[1..];
    } else {
      SplitJoin(s[1..], sep);
      var rest := Split(s[1..], sep);
      var parts := Split(s, sep);
      if |rest| == 1 {
        assert parts == [[s[0]] + rest[0]];
        assert s == [s[0]] + s[1..];
      } else {
        assert parts[1..] == rest[1..];
        assert Join(rest, sep) == rest[0] + [sep] + Join(rest[1..], sep);
        assert s == [s[0]] + s[1..];
      }
    }
  }

  /** The first piece of a split is the word before the first separator. */
  lemma {:induction false} SplitFirstPiece(s: string, sep: char)
    ensures Split(s, sep)[0] == Word(s, sep)
    decreases |s|
  {
    if s != [] && s[0] != sep {
      SplitFirstPiece(s[1..], sep);
    }
  }

  /** A word followed by a separator splits off as the first piece. */
  lemma {:induction false} SplitAfterWord(w: string, sep: char, rest: string)
    requires sep !in w
    ensures Split(w + [sep] + rest, sep) == [w] + Split(rest, sep)
    decreases |w|
  {
    var s := w + [sep] + rest;
    if w == [] {
      assert s[1..] == rest;
    } else {
      assert s[1..] == w[1..] + [sep] + rest;
      SplitAfterWord(w[1..], sep, rest);
      assert [w[0]] + w[1..] == w;
    }
  }

  /** Decimal rendering of a natural number, as `String(n)` gives it. */
  function Decimal(n: nat): (r: string)
    ensures |r| >= 1
    ensures forall i :: 0 <= i < |r| ==> '0' <= r[i] <= '9'
  {
    if n < 10 then [Digit(n)] else Decimal(n / 10) + [Digit(n % 10)]
  }

  function Digit(d: nat): (c: char)
    requires d < 10
    ensures '0' <= c <= '9'
  {
    ('0' as int + d) as char
  }
}

=== FILE: pipeline.dfy ===
/** How a route strings its handlers together:
    `verifyFirebaseToken`? → validation chains → `validateRequest`? → controller.
    A route configuration says whether it authenticates and whether it
    enforces the validation result; the chains always run. */
module Pipeline {
  import opened JsValues
  import opened Http
  import opened Runtime
  import opened Validation
  import ValidateRequest
  import AuthMiddleware

  datatype RouteConfig = RouteConfig(authenticate: bool, validators: seq<Chain>, enforce: bool)

  /** Whether the request reaches the controller; if it does, with the
      verified caller (when the route authenticates) and the errors the
      chains recorded (which an unenforcing route never reads). */
  datatype Gate =
    | Blocked(response: Response)
    | Admitted(user: Option<AuthMiddleware.User>, errors: seq<FieldError>)

  /** The handlers before the controller, in route order. */
  function Admit(cfg: RouteConfig, req: Request, env: Env): (g: Gate)
    ensures g.Admitted? <==>
              (!cfg.authenticate || AuthMiddleware.VerifyFirebaseToken(req, env).Authenticated?)
              && (!cfg.enforce || RunChains(cfg.validators, req, env) == [])
    ensures cfg.authenticate && AuthMiddleware.VerifyFirebaseToken(req, env).Unauthorized? ==>
              g == Blocked(AuthMiddleware.VerifyFirebaseToken(req, env).response)
    ensures g.Blocked? && !(cfg.authenticate && AuthMiddleware.VerifyFirebaseToken(req, env).Unauthorized?) ==>
              g == Blocked(ValidateRequest.Middleware(RunChains(cfg.validators, req, env)).response)
    ensures g.Admitted? ==> g.errors == RunChains(cfg.validators, req, env)
  {
    if cfg.authenticate then
      match AuthMiddleware.VerifyFirebaseToken(req, env)
      case Unauthorized(resp) => Blocked(resp)
      case Authenticated(user) => Enforce(cfg, req, env, Some(user))
    else Enforce(cfg, req, env, None)
  }

  /** The chains, then `validateRequest` when the route has it. */
  function Enforce(cfg: RouteConfig, req: Request, env: Env, user: Option<AuthMiddleware.User>): Gate {
    var errs := RunChains(cfg.validators, req, env);
    if cfg.enforce then
      match ValidateRequest.Middleware(errs)
      case Halt(resp) => Blocked(resp)
      case Next => Admitted(user, errs)
    else Admitted(user, errs)
  }
}

=== FILE: product_controller.dfy ===
/** The five handlers of the `products` collection. */
module ProductController {
  import opened JsValues
  import opened Seqs
  import opened Documents
  import opened Http
  import opened Runtime
  import opened Search
  import Crud

  const Texts := Crud.Messages(
    "Product not found",
    "Product created successfully",
    "Product updated successfully",
    "Product deleted successfully")

  /** The body fields the create and update handlers read. */
  const Editable: set<Field> := {"name", "description", "price", "category", "imageUrls", "isAvailable"}

  /** The body fields `createProduct` stores as given, without a default. */
  const Copied: set<Field> := {"name", "description", "category"}

  /** The snapshot `getProducts` searches: all products, or, when the
      `category` query value is truthy, those whose `category` equals it.
      A repeated parameter arrives as an array, which is truthy, and is
      compared as the array. */
  function Fetch(docs: seq<Doc>, category: Option<Value>): (r: seq<Doc>)
    ensures IsSubsequence(r, docs)
    ensures forall d :: d in r <==>
              d in docs && (TruthyField(category) ==> FieldEquals(d, "category", category.value))
  {
    if TruthyField(category) then WhereEquals(docs, "category", category.value)
    else
      SubsequenceRefl(docs);
      docs
  }

  /** Filtering a snapshot of `store` by a truthy category value leaves
      the response shapes of exactly the stored products holding it. */
  lemma FetchedViews(snapshot: seq<Doc>, store: Store, v: Value)
    requires Enumerates(snapshot, store)
    requires Truthy(v)
    ensures forall x :: x in Views(Fetch(snapshot, Some(v))) <==>
              exists id :: id in store && Get(store[id], "category") == Some(v) && x == View(Doc(id, store[id]))
  {
    var fetched := Fetch(snapshot, Some(v));
    assert forall d :: d in fetched <==> d in snapshot && FieldEquals(d, "category", v);
    ViewsMembers(fetched);
    forall x | x in Views(fetched)
      ensures exists id :: id in store && Get(store[id], "category") == Some(v) && x == View(Doc(id, store[id]))
    {
      var d :| d in fetched && x == View(d);
      var i :| 0 <= i < |snapshot| && snapshot[i] == d;
      assert d == Doc(d.id, store[d.id]);
    }
    forall id | id in store && Get(store[id], "category") == Some(v)
      ensures View(Doc(id, store[id])) in Views(fetched)
    {
      var i :| 0 <= i < |snapshot| && snapshot[i].id == id;
      assert snapshot[i] == Doc(id, store[id]);
      assert Doc(id, store[id]) in fetched;
    }
  }

  /** `GET /api/products?category=&search=` over the collection's snapshot
      `docs`. */
  function GetProducts(docs: seq<Doc>, category: Option<Value>, search: Option<string>): (r: Reply)
    ensures r.Send? ==> r.response.status == 200 && r.response.payload.ListBody?
                        && r.response.payload.key == "products"
    ensures TruthyField(category) && r.Send? ==>
              forall x :: x in r.response.payload.items ==> Get(x, "category") == category
    ensures r.Send? ==> forall x :: x in r.response.payload.items ==> exists d :: d in docs && x == View(d)
    ensures r.Send? ==> IsSubsequence(r.response.payload.items, Views(Fetch(docs, category)))
    ensures search.None? || search == Some("") ==>
              r == Send(Response(200, ListBody("products", Views(Fetch(docs, category)))))
    ensures forall t :: search == Some(t) && t != "" && r.Send? ==>
              forall x :: x in r.response.payload.items <==>
                x in Views(Fetch(docs, category)) && Mentions(x, Lower(t))
    ensures forall t :: search == Some(t) && t != "" && r.Send? ==>
              forall x :: multiset(r.response.payload.items)[x] ==
                if Mentions(x, Lower(t)) then multiset(Views(Fetch(docs, category)))[x] else 0
    ensures r.ErrorForwarded? <==>
              exists t :: search == Some(t) && t != "" && exists x :: x in Views(Fetch(docs, category)) && Judge(x, Lower(t)) == Throws
  {
    var fetched := Fetch(docs, category);
    var items := Views(fetched);
    ViewsMembers(fetched);
    ViewsMembers(docs);
    match ApplySearch(items, search)
    case None => ErrorForwarded
    case Some(found) =>
      SubsequenceMembers(found, items);
      Send(Response(200, ListBody("products", found)))
  }

  /** `GET /api/products/:id`. */
  function GetProductById(store: Store, id: Id): (h: Handled)
    ensures h.store == store
    ensures id !in store ==> h.reply == Send(Response(404, ErrorBody("Product not found")))
    ensures id in store ==>
              h.reply.Send? && h.reply.response.status == 200 && h.reply.response.payload.RecordBody?
    ensures id in store ==>
              var fields := h.reply.response.payload.fields;
              && fields.Keys == store[id].Keys + {IdField}
              && (forall f :: f in store[id] ==> fields[f] == store[id][f])
              && (IdField !in store[id] ==> fields[IdField] == Some(Str(id)))
  {
    Crud.FindById(Texts, store, id)
  }

  /** The document `createProduct` adds: the body's fields with `price`
      through `Number`, an `imageUrls` that is not an array replaced by
      `[]`, an `isAvailable` that is not a boolean replaced by `true`, and
      both timestamps set to the same instant. */
  function NewProduct(body: map<string, Value>, env: Env): (rec: Record)
    ensures rec.Keys == Editable + {CreatedAt, UpdatedAt}
    ensures IdField !in rec
    ensures forall f :: f in {"name", "description", "category"} ==> rec[f] == Lookup(body, f)
    ensures rec["price"] == Some(ToNumber(Lookup(body, "price"), env.numeral))
    ensures IsArray(rec["imageUrls"])
    ensures IsArray(Lookup(body, "imageUrls")) ==> rec["imageUrls"] == Lookup(body, "imageUrls")
    ensures !IsArray(Lookup(body, "imageUrls")) ==> rec["imageUrls"] == Some(Arr([]))
    ensures rec["isAvailable"].Some? && rec["isAvailable"].value.Bool?
    ensures forall b :: Lookup(body, "isAvailable") == Some(Bool(b)) ==> rec["isAvailable"] == Some(Bool(b))
    ensures !(Lookup(body, "isAvailable").Some? && Lookup(body, "isAvailable").value.Bool?) ==>
              rec["isAvailable"] == Some(Bool(true))
    ensures rec[CreatedAt] == rec[UpdatedAt] == Some(Str(env.now))
  {
    var imageUrls := Lookup(body, "imageUrls");
    var isAvailable := Lookup(body, "isAvailable");
    map[
      "name" := Lookup(body, "name"),
      "description" := Lookup(body, "description"),
      "price" := Some(ToNumber(Lookup(body, "price"), env.numeral)),
      "category" := Lookup(body, "category"),
      "imageUrls" := Some(if IsArray(imageUrls) then imageUrls.value else Arr([])),
      "isAvailable" := Some(if isAvailable.Some? && isAvailable.value.Bool? then isAvailable.value else Bool(true)),
      CreatedAt := Some(Str(env.now)),
      UpdatedAt := Some(Str(env.now))
    ]
  }

  /** `POST /api/products`: adds the new document under a fresh id and
      answers 201 with that id. A body without a name, description or
      category leaves one of them `undefined`, which the store refuses. */
  function CreateProduct(store: Store, body: map<string, Value>, env: Env): (h: Handled)
    requires env.freshId !in store
    ensures !(Copied <= body.Keys) ==> h == Handled(ErrorForwarded, store)
    ensures Copied <= body.Keys ==>
              && h.reply == Send(Response(201, CreatedBody(env.freshId, "Product created successfully")))
              && h.store.Keys == store.Keys + {env.freshId}
              && (forall id :: id in store ==> h.store[id] == store[id])
              && h.store[env.freshId] == NewProduct(body, env)
  {
    Crud.Insert(Texts, store, env.freshId, NewProduct(body, env))
  }

  /** The `updates` object of `updateProduct`: `updatedAt`, plus each
      editable body field that is not `undefined`, with `price` through
      `Number` and a non-array `imageUrls` replaced by `[]`. */
  function ProductPatch(body: map<string, Value>, env: Env): (p: Record)
    ensures p.Keys == {UpdatedAt} + (Editable * body.Keys)
    ensures p[UpdatedAt] == Some(Str(env.now))
    ensures forall f :: f in {"name", "description", "category", "isAvailable"} && f in body ==>
              p[f] == Some(body[f])
    ensures "price" in body ==> p["price"] == Some(ToNumber(Some(body["price"]), env.numeral))
    ensures "imageUrls" in body ==>
              p["imageUrls"] == Some(if body["imageUrls"].Arr? then body["imageUrls"] else Arr([]))
  {
    map f | f in {UpdatedAt} + (Editable * body.Keys) ::
      if f == UpdatedAt then Some(Str(env.now)) else Some(Stored(f, body[f], env))
  }

  /** How `updateProduct` writes a body field it copies. */
  function Stored(f: Field, v: Value, env: Env): Value {
    if f == "price" then ToNumber(Some(v), env.numeral)
    else if f == "imageUrls" then (if v.Arr? then v else Arr([]))
    else v
  }

  /** `PUT /api/products/:id`: 404 without a write when the id is not
      stored; otherwise a merge of `ProductPatch` into the stored document. */
  function UpdateProduct(store: Store, id: Id, body: map<string, Value>, env: Env): (h: Handled)
    ensures id !in store ==> h == Handled(Send(Response(404, ErrorBody("Product not found"))), store)
    ensures id in store ==> h.reply == Send(Response(200, MessageBody("Product updated successfully")))
    ensures h.store.Keys == store.Keys
    ensures forall other :: other in store && other != id ==> h.store[other] == store[other]
    ensures id in store ==>
              && h.store[id].Keys == store[id].Keys + {UpdatedAt} + (Editable * body.Keys)
              && h.store[id][UpdatedAt] == Some(Str(env.now))
              && (forall f :: f in store[id] && f != UpdatedAt && !(f in Editable && f in body) ==>
                    h.store[id][f] == store[id][f])
              && (forall f :: f in Editable && f in body ==> h.store[id][f] == Some(Stored(f, body[f], env)))
  {
    Crud.PatchById(Texts, store, id, ProductPatch(body, env))
  }

  /** `DELETE /api/products/:id`. */
  function DeleteProduct(store: Store, id: Id): (h: Handled)
    ensures id !in store ==> h == Handled(Send(Response(404, ErrorBody("Product not found"))), store)
    ensures id in store ==> h.reply == Send(Response(200, MessageBody("Product deleted successfully")))
    ensures h.store.Keys == store.Keys - {id}
    ensures forall other :: other in h.store ==> h.store[other] == store[other]
  {
    Crud.RemoveById(Texts, store, id)
  }
}

=== FILE: product_routes.dfy ===
/** The `products` router: its validation chains and, per route, the
    handlers that run before the controller. The write routes list their
    chains but neither verify a token nor enforce the chains' result. */
module ProductRoutes {
  import opened JsValues
  import opened Documents
  import opened Http
  import opened Runtime
  import opened Validation
  import opened Pipeline
  import opened Search
  import AuthMiddleware
  import ProductController
  import ValidateRequest

  /** The closed set of product categories. */
  const Categories := ["hibachi", "sushi", "side", "appetizer"]

  const PriceMessage := "Price must be a positive number"
  const CategoryMessage := "Category must be one of: hibachi, sushi, side, appetizer"
  const ImagesMessage := "imageUrls must be an array with at least one URL"
  const UrlMessage := "Each image URL in imageUrls must be a valid URL"
  const BooleanMessage := "isAvailable must be boolean"

  // Chains of `createProductValidators`.
  const NameRequired := Chain(InBody, Field("name"), false, [Step(NotEmpty, "Name is required")])
  const DescriptionRequired := Chain(InBody, Field("description"), false, [Step(NotEmpty, "Description is required")])
  const PriceRequired :=
    Chain(InBody, Field("price"), false, [Step(NotEmpty, "Price is required"), Step(PositiveFloat, PriceMessage)])
  const CategoryRequired :=
    Chain(InBody, Field("category"), false, [Step(NotEmpty, "Category is required"), Step(IsIn(Categories), CategoryMessage)])
  const ImagesNonEmpty := Chain(InBody, Field("imageUrls"), true, [Step(IsArray(1), ImagesMessage)])
  const EachImageUrl := Chain(InBody, EachElement("imageUrls"), true, [Step(IsUrl, UrlMessage)])
  const AvailabilityFlag := Chain(InBody, Field("isAvailable"), true, [Step(IsBoolean, BooleanMessage)])

  // Chains of `updateProductValidators` that differ from the create ones.
  const ProductIdRequired := Chain(InParams, Field("id"), false, [Step(NotEmpty, "Product id is required")])
  const PriceOptional := Chain(InBody, Field("price"), true, [Step(PositiveFloat, PriceMessage)])
  const CategoryOptional := Chain(InBody, Field("category"), true, [Step(IsIn(Categories), CategoryMessage)])
  const ImagesArray := Chain(InBody, Field("imageUrls"), true, [Step(IsArray(0), "imageUrls must be an array")])

  // Chains of the list route's query.
  const CategoryFilter := Chain(InQuery, Field("category"), true, [Step(IsIn(Categories), "Invalid category filter")])
  const SearchText := Chain(InQuery, Field("search"), true, [Step(IsString, DefaultMessage)])

  const CreateProductValidators: seq<Chain> :=
    [NameRequired, DescriptionRequired, PriceRequired, CategoryRequired, ImagesNonEmpty, EachImageUrl, AvailabilityFlag]

  const UpdateProductValidators: seq<Chain> :=
    [ProductIdRequired, PriceOptional, CategoryOptional, ImagesArray, EachImageUrl, AvailabilityFlag]

  const ListQueryValidators: seq<Chain> := [CategoryFilter, SearchText]

  const IdValidators: seq<Chain> := [ProductIdRequired]

  datatype Route = ListProducts | GetProduct | CreateProduct | UpdateProduct | DeleteProduct

  /** The router as written: only the two GET routes run `validateRequest`,
      and no route runs `verifyFirebaseToken`. */
  function Config(r: Route): RouteConfig {
    match r
    case ListProducts => RouteConfig(false, ListQueryValidators, true)
    case GetProduct => RouteConfig(false, IdValidators, true)
    case CreateProduct => RouteConfig(false, CreateProductValidators, false)
    case UpdateProduct => RouteConfig(false, UpdateProductValidators, false)
    case DeleteProduct => RouteConfig(false, IdValidators, false)
  }

  /** The router as written verifies no token anywhere and enforces the
      chains on the two GET routes only, while every route keeps its own
      chains. */
  lemma ConfigTable(r: Route)
    ensures !Config(r).authenticate
    ensures Config(r).enforce <==> r.ListProducts? || r.GetProduct?
    ensures r.CreateProduct? ==> Config(r).validators == CreateProductValidators
    ensures r.UpdateProduct? ==> Config(r).validators == UpdateProductValidators
    ensures r.GetProduct? || r.DeleteProduct? ==> Config(r).validators == IdValidators
    ensures r.ListProducts? ==> Config(r).validators == ListQueryValidators
  {
  }

  /** The router the write routes' comments describe: token verification
      and `validateRequest` on every write route, as on the category
      router. */
  function GuardedConfig(r: Route): (cfg: RouteConfig)
    ensures cfg.validators == Config(r).validators
    ensures cfg.authenticate <==> !(r.ListProducts? || r.GetProduct?)
    ensures cfg.enforce
  {
    if r.ListProducts? || r.GetProduct? then Config(r)
    else RouteConfig(true, Config(r).validators, true)
  }

  /** The controller a route ends in. */
  function Controller(r: Route, req: Request, store: Store, snapshot: seq<Doc>, env: Env): Handled
    requires r.CreateProduct? ==> env.freshId !in store
  {
    match r
    case ListProducts =>
      Handled(ProductController.GetProducts(snapshot, QueryField(req, "category"), QueryText(req, "search")), store)
    case GetProduct => ProductController.GetProductById(store, req.id)
    case CreateProduct => ProductController.CreateProduct(store, req.body, env)
    case UpdateProduct => ProductController.UpdateProduct(store, req.id, req.body, env)
    case DeleteProduct => ProductController.DeleteProduct(store, req.id)
  }

  /** One request through a router configuration: a blocked request is
      answered without touching the store. */
  function Serve(cfg: RouteConfig, r: Route, req: Request, store: Store, snapshot: seq<Doc>, env: Env): (h: Handled)
    requires r.CreateProduct? ==> env.freshId !in store
    ensures Admit(cfg, req, env).Blocked? ==> h == Handled(Send(Admit(cfg, req, env).response), store)
    ensures Admit(cfg, req, env).Admitted? ==> h == Controller(r, req, store, snapshot, env)
  {
    match Admit(cfg, req, env)
    case Blocked(resp) => Handled(Send(resp), store)
    case Admitted(_, _) => Controller(r, req, store, snapshot, env)
  }

  /** A request to the `products` router as written, over the collection
      `store` whose current snapshot is `snapshot`. The GET routes answer
      422 exactly when their chains flag something, and never write; the
      write routes run their controller whatever the token and the chains
      say. */
  function Handle(r: Route, req: Request, store: Store, snapshot: seq<Doc>, env: Env): (h: Handled)
    requires Enumerates(snapshot, store)
    requires r.CreateProduct? ==> env.freshId !in store
    ensures r.ListProducts? || r.GetProduct? ==> h.store == store
    ensures r.ListProducts? || r.GetProduct? ==>
              (RunChains(Config(r).validators, req, env) != [] <==> h.reply.Send? && h.reply.response.status == 422)
    ensures r.ListProducts? || r.GetProduct? ==>
              (RunChains(Config(r).validators, req, env) == [] ==> h == Controller(r, req, store, snapshot, env))
    ensures r.CreateProduct? ==> h == ProductController.CreateProduct(store, req.body, env)
    ensures r.UpdateProduct? ==> h == ProductController.UpdateProduct(store, req.id, req.body, env)
    ensures r.DeleteProduct? ==> h == ProductController.DeleteProduct(store, req.id)
  {
    Serve(Config(r), r, req, store, snapshot, env)
  }

  /** The guarded router: a write goes through only with a verified token
      and a request the chains accept; otherwise it answers 401 or 422 and
      the store is unchanged. */
  function GuardedHandle(r: Route, req: Request, store: Store, snapshot: seq<Doc>, env: Env): (h: Handled)
    requires Enumerates(snapshot, store)
    requires r.CreateProduct? ==> env.freshId !in store
    ensures h.store != store ==>
              && AuthMiddleware.VerifyFirebaseToken(req, env).Authenticated?
              && RunChains(Config(r).validators, req, env) == []
    ensures !(r.ListProducts? || r.GetProduct?) && AuthMiddleware.VerifyFirebaseToken(req, env).Unauthorized? ==>
              h == Handled(Send(AuthMiddleware.VerifyFirebaseToken(req, env).response), store)
    ensures AuthMiddleware.VerifyFirebaseToken(req, env).Authenticated? && RunChains(Config(r).validators, req, env) != [] ==>
              h.store == store && h.reply.Send? && h.reply.response.status == 422
    ensures AuthMiddleware.VerifyFirebaseToken(req, env).Authenticated? && RunChains(Config(r).validators, req, env) == [] ==>
              h == Controller(r, req, store, snapshot, env)
  {
    Serve(GuardedConfig(r), r, req, store, snapshot, env)
  }

  /** Each chain of the create and update lists selects a value no other
      chain of its list selects. */
  lemma ProductListsSelective()
    ensures Selective(CreateProductValidators)
    ensures Selective(UpdateProductValidators)
  {
  }

  /** `createProductValidators` flag an empty name or description. */
  lemma CreateFlagsMissingText(req: Request, env: Env)
    ensures var errs := RunChains(CreateProductValidators, req, env);
            && (FieldError(InBody, Key("name"), "Name is required") in errs <==>
                HasEmptyText(BodyField(req, "name")))
            && (FieldError(InBody, Key("description"), "Description is required") in errs <==>
                HasEmptyText(BodyField(req, "description")))
  {
    StandardRejections(BodyField(req, "name"), Categories, env);
    StandardRejections(BodyField(req, "description"), Categories, env);
    ProductListsSelective();
    SoleFieldFlag(CreateProductValidators, 0, 0, req, env);
    SoleFieldFlag(CreateProductValidators, 1, 0, req, env);
  }

  /** `createProductValidators` flag a missing price, and separately one
      that is not a positive number. */
  lemma CreateFlagsPrice(req: Request, env: Env)
    ensures var errs := RunChains(CreateProductValidators, req, env);
            var price := BodyField(req, "price");
            && (FieldError(InBody, Key("price"), "Price is required") in errs <==>
                HasEmptyText(price))
            && (FieldError(InBody, Key("price"), PriceMessage) in errs <==>
                HasNonPositive(price, env))
  {
    StandardRejections(BodyField(req, "price"), Categories, env);
    ProductListsSelective();
    SoleFieldFlag(CreateProductValidators, 2, 0, req, env);
    SoleFieldFlag(CreateProductValidators, 2, 1, req, env);
  }

  /** `createProductValidators` require a category and accept only the
      four listed ones. */
  lemma CreateFlagsCategory(req: Request, env: Env)
    ensures var errs := RunChains(CreateProductValidators, req, env);
            var category := BodyField(req, "category");
            && (FieldError(InBody, Key("category"), "Category is required") in errs <==>
                HasEmptyText(category))
            && (FieldError(InBody, Key("category"), CategoryMessage) in errs <==>
                HasOutside(category, Categories))
  {
    StandardRejections(BodyField(req, "category"), Categories, env);
    ProductListsSelective();
    SoleFieldFlag(CreateProductValidators, 3, 0, req, env);
    SoleFieldFlag(CreateProductValidators, 3, 1, req, env);
  }

  /** `createProductValidators` flag a present `imageUrls` that is not an
      array with at least one element, and each element that fails the URL
      check. */
  lemma CreateFlagsImages(req: Request, env: Env)
    ensures var errs := RunChains(CreateProductValidators, req, env);
            var images := BodyField(req, "imageUrls");
            && (FieldError(InBody, Key("imageUrls"), ImagesMessage) in errs <==>
                images.Some? && !(images.value.Arr? && |images.value.items| >= 1))
            && (forall i: nat :: FieldError(InBody, Index("imageUrls", i), UrlMessage) in errs <==>
                images.Some? && images.value.Arr? && i < |images.value.items| && !Passes(IsUrl, Some(images.value.items[i]), env))
  {
    ProductListsSelective();
    SoleFieldFlag(CreateProductValidators, 4, 0, req, env);
    SoleElementFlag(CreateProductValidators, 5, req, env);
  }

  /** `createProductValidators` flag a present `isAvailable` that is not
      boolean. */
  lemma CreateFlagsAvailability(req: Request, env: Env)
    ensures var errs := RunChains(CreateProductValidators, req, env);
            var available := BodyField(req, "isAvailable");
            FieldError(InBody, Key("isAvailable"), BooleanMessage) in errs <==>
              available.Some? && HasNonBoolean(available)
  {
    StandardRejections(BodyField(req, "isAvailable"), Categories, env);
    ProductListsSelective();
    SoleFieldFlag(CreateProductValidators, 6, 0, req, env);
  }

  /** `updateProductValidators` and the id routes require a non-empty `:id`. */
  lemma IdFlags(req: Request, env: Env)
    ensures FieldError(InParams, Key("id"), "Product id is required") in RunChains(UpdateProductValidators, req, env) <==>
              req.id == ""
    ensures RunChains(IdValidators, req, env) ==
              if req.id == "" then [FieldError(InParams, Key("id"), "Product id is required")] else []
  {
    ProductListsSelective();
    SoleFieldFlag(UpdateProductValidators, 0, 0, req, env);
    OneStepChain(InParams, "id", false, Step(NotEmpty, "Product id is required"), req, env);
    RunChainsCons(ProductIdRequired, [], req, env);
  }

  /** `updateProductValidators` flag a price only when it is present and not
      a positive number, and a category only when it is present and not one
      of the four. */
  lemma UpdateFlagsPriceCategory(req: Request, env: Env)
    ensures var errs := RunChains(UpdateProductValidators, req, env);
            var price := BodyField(req, "price");
            var category := BodyField(req, "category");
            && (FieldError(InBody, Key("price"), PriceMessage) in errs <==>
                price.Some? && HasNonPositive(price, env))
            && (FieldError(InBody, Key("price"), "Price is required") !in errs)
            && (FieldError(InBody, Key("category"), CategoryMessage) in errs <==>
                category.Some? && HasOutside(category, Categories))
            && (FieldError(InBody, Key("category"), "Category is required") !in errs)
  {
    ProductListsSelective();
    var errs := RunChains(UpdateProductValidators, req, env);
    var price := BodyField(req, "price");
    var category := BodyField(req, "category");
    StandardRejections(price, Categories, env);
    StandardRejections(category, Categories, env);
    assert UpdateProductValidators[1] == PriceOptional && UpdateProductValidators[2] == CategoryOptional;
    assert FieldError(InBody, Key("price"), PriceMessage) in errs <==>
             price.Some? && HasNonPositive(price, env) by {
      SoleFieldFlag(UpdateProductValidators, 1, 0, req, env);
    }
    assert FieldError(InBody, Key("category"), CategoryMessage) in errs <==>
             category.Some? && HasOutside(category, Categories) by {
      SoleFieldFlag(UpdateProductValidators, 2, 0, req, env);
    }
    SoleFieldUnflagged(UpdateProductValidators, 1, "Price is required", req, env);
    SoleFieldUnflagged(UpdateProductValidators, 2, "Category is required", req, env);
  }

  /** `updateProductValidators` accept any array as `imageUrls`, even an
      empty one, and check each element as on create. */
  lemma UpdateFlagsImages(req: Request, env: Env)
    ensures var errs := RunChains(UpdateProductValidators, req, env);
            var images := BodyField(req, "imageUrls");
            && (FieldError(InBody, Key("imageUrls"), "imageUrls must be an array") in errs <==>
                images.Some? && !images.value.Arr?)
            && (FieldError(InBody, Key("imageUrls"), ImagesMessage) !in errs)
            && (forall i: nat :: FieldError(InBody, Index("imageUrls", i), UrlMessage) in errs <==>
                images.Some? && images.value.Arr? && i < |images.value.items| &&
                !Passes(IsUrl, Some(images.value.items[i]), env))
  {
    ProductListsSelective();
    SoleFieldFlag(UpdateProductValidators, 3, 0, req, env);
    SoleFieldUnflagged(UpdateProductValidators, 3, ImagesMessage, req, env);
    SoleElementFlag(UpdateProductValidators, 4, req, env);
  }

  /** `updateProductValidators` check `isAvailable` as on create. */
  lemma UpdateFlagsAvailability(req: Request, env: Env)
    ensures var available := BodyField(req, "isAvailable");
            FieldError(InBody, Key("isAvailable"), BooleanMessage) in RunChains(UpdateProductValidators, req, env) <==>
              available.Some? && HasNonBoolean(available)
  {
    StandardRejections(BodyField(req, "isAvailable"), Categories, env);
    ProductListsSelective();
    SoleFieldFlag(UpdateProductValidators, 5, 0, req, env);
  }

  /** The list route's query: a present `category` outside the four is
      flagged "Invalid category filter", a present `search` that is not text
      gets the default message, and nothing else is flagged. */
  lemma ListQueryErrors(req: Request, env: Env)
    ensures var category := QueryField(req, "category");
            var search := QueryField(req, "search");
            RunChains(ListQueryValidators, req, env) ==
              (if category.Some?
               then Repeat(FieldError(InQuery, Key("category"), "Invalid category filter"),
                           Failures(IsIn(Categories), category, env))
               else [])
              + (if search.Some? && !search.value.Str? then [FieldError(InQuery, Key("search"), DefaultMessage)] else [])
  {
    RunChainsCons(SearchText, [], req, env);
    RunChainsCons(CategoryFilter, [SearchText], req, env);
    assert ListQueryValidators == [CategoryFilter] + [SearchText];
    OneStepChain(InQuery, "category", true, Step(IsIn(Categories), "Invalid category filter"), req, env);
    OneStepChain(InQuery, "search", true, Step(IsString, DefaultMessage), req, env);
  }

  /** `GET /api/products/:id` with an empty id answers 422 with the one
      detail for `id`, and reads nothing. */
  lemma GetRejectsEmptyId(req: Request, store: Store, snapshot: seq<Doc>, env: Env)
    requires Enumerates(snapshot, store)
    requires req.id == ""
    ensures Handle(GetProduct, req, store, snapshot, env) ==
              Handled(Send(Response(422, ValidationBody("Validation failed", [Detail("id", "Product id is required")]))), store)
  {
    IdFlags(req, env);
    var errs := [FieldError(InParams, Key("id"), "Product id is required")];
    assert ValidateRequest.Details(errs) == [Detail("id", "Product id is required")];
  }

  /** A category filter outside the four is answered 422 with
      "Invalid category filter" as its first detail, before any read. */
  lemma ListRejectsUnknownCategory(req: Request, store: Store, snapshot: seq<Doc>, env: Env)
    requires Enumerates(snapshot, store)
    requires QueryField(req, "category").Some?
    requires HasOutside(QueryField(req, "category"), Categories)
    ensures var h := Handle(ListProducts, req, store, snapshot, env);
            && h.store == store
            && h.reply.Send? && h.reply.response.status == 422
            && h.reply.response.payload.details[0] == Detail("category", "Invalid category filter")
  {
    StandardRejections(QueryField(req, "category"), Categories, env);
    ListQueryErrors(req, env);
  }

  /** Without query parameters the list route answers with every stored
      product, each with its id. */
  lemma ListShowsStore(req: Request, store: Store, snapshot: seq<Doc>, env: Env)
    requires Enumerates(snapshot, store)
    requires QueryField(req, "category").None? && QueryField(req, "search").None?
    ensures var h := Handle(ListProducts, req, store, snapshot, env);
            && h.reply.Send? && h.reply.response.status == 200
            && forall x :: x in h.reply.response.payload.items <==>
                 exists id :: id in store && x == View(Doc(id, store[id]))
  {
    ListQueryErrors(req, env);
    SnapshotViews(snapshot, store);
  }

  /** With a text search term and no category the list route answers with
      exactly the stored products whose name or description mentions the
      term, ignoring case, unless one of them makes the search throw. */
  lemma ListSearchesStore(req: Request, store: Store, snapshot: seq<Doc>, env: Env, t: string)
    requires Enumerates(snapshot, store)
    requires QueryField(req, "category").None? && QueryField(req, "search") == Some(Str(t)) && t != ""
    ensures var h := Handle(ListProducts, req, store, snapshot, env);
            h.reply.Send? ==>
              && h.reply.response.status == 200 && h.reply.response.payload.ListBody?
              && forall x :: x in h.reply.response.payload.items <==>
                (exists id :: id in store && x == View(Doc(id, store[id]))) && Mentions(x, Lower(t))
  {
    ListQueryErrors(req, env);
    SnapshotViews(snapshot, store);
  }

  /** With a category filter the chains accept and no search term, the
      list route answers with exactly the stored products whose `category`
      equals the filter value. */
  lemma ListFiltersStore(req: Request, store: Store, snapshot: seq<Doc>, env: Env)
    requires Enumerates(snapshot, store)
    requires QueryField(req, "category").Some? && !HasOutside(QueryField(req, "category"), Categories)
    requires QueryField(req, "search").None?
    ensures var h := Handle(ListProducts, req, store, snapshot, env);
            var v := QueryField(req, "category").value;
            && h.reply.Send? && h.reply.response.status == 200 && h.reply.response.payload.ListBody?
            && forall x :: x in h.reply.response.payload.items <==>
                 exists id :: id in store && Get(store[id], "category") == Some(v) && x == View(Doc(id, store[id]))
  {
    var v := QueryField(req, "category").value;
    ListAccepted(req, env);
    assert Handle(ListProducts, req, store, snapshot, env).reply ==
           Send(Response(200, ListBody("products", Views(ProductController.Fetch(snapshot, Some(v))))));
    ProductController.FetchedViews(snapshot, store, v);
  }

  /** A category filter with no element outside the four is truthy and
      passes the list chains. */
  lemma ListAccepted(req: Request, env: Env)
    requires QueryField(req, "category").Some? && !HasOutside(QueryField(req, "category"), Categories)
    requires QueryField(req, "search").None?
    ensures RunChains(ListQueryValidators, req, env) == []
    ensures TruthyField(QueryField(req, "category"))
  {
    var v := QueryField(req, "category").value;
    StandardRejections(QueryField(req, "category"), Categories, env);
    ListQueryErrors(req, env);
    if v.Str? { assert v.s in Categories; }
  }

  /** A repeated `category` parameter arrives as an array. Each element is
      one of the four, so the chains accept it, but the store is queried
      for a `category` equal to the array itself: over products whose
      categories are text the list is empty. */
  lemma RepeatedCategoryListsNothing(req: Request, store: Store, snapshot: seq<Doc>, env: Env)
    requires Enumerates(snapshot, store)
    requires QueryField(req, "category") == Some(Arr([Str("sushi"), Str("sushi")]))
    requires QueryField(req, "search").None?
    requires forall id :: id in store ==> !JsValues.IsArray(Get(store[id], "category"))
    ensures Handle(ListProducts, req, store, snapshot, env) == Handled(Send(Response(200, ListBody("products", []))), store)
  {
    var v := Arr([Str("sushi"), Str("sushi")]);
    ListAccepted(req, env);
    assert forall d :: d in snapshot ==> !FieldEquals(d, "category", v) by {
      forall d | d in snapshot ensures !FieldEquals(d, "category", v) {
        var i :| 0 <= i < |snapshot| && snapshot[i] == d;
        assert d.data == store[d.id];
      }
    }
    WhereEqualsNone(snapshot, "category", v);
  }

  /** A request with no token whose body sets every field the create
      handler copies, each to a value its chain rejects. */
  function Unchecked(): Request {
    Request("", map[], map["name" := Str(""), "description" := Str(""), "price" := Num(-1.0), "category" := Str("pizza")],
            None, None)
  }

  /** As written, that request to `POST /api/products` carries no token and
      is flagged by the chains, yet it stores a product with an empty name
      and a negative price. */
  lemma OpenCreateStoresUnchecked(store: Store, snapshot: seq<Doc>, env: Env)
    requires Enumerates(snapshot, store)
    requires env.freshId !in store
    ensures AuthMiddleware.VerifyFirebaseToken(Unchecked(), env).Unauthorized?
    ensures FieldError(InBody, Key("name"), "Name is required") in RunChains(CreateProductValidators, Unchecked(), env)
    ensures FieldError(InBody, Key("price"), PriceMessage) in RunChains(CreateProductValidators, Unchecked(), env)
    ensures var h := Handle(CreateProduct, Unchecked(), store, snapshot, env);
            && h.reply == Send(Response(201, CreatedBody(env.freshId, "Product created successfully")))
            && env.freshId in h.store
            && h.store[env.freshId]["name"] == Some(Str(""))
            && h.store[env.freshId]["price"] == Some(Num(-1.0))
  {
    var req := Unchecked();
    assert FieldError(InBody, Key("name"), "Name is required") in RunChains(CreateProductValidators, req, env) by {
      CreateFlagsMissingText(req, env);
      assert BodyField(req, "name") == Some(Str(""));
    }
    assert FieldError(InBody, Key("price"), PriceMessage) in RunChains(CreateProductValidators, req, env) by {
      CreateFlagsPrice(req, env);
      assert BodyField(req, "price") == Some(Num(-1.0));
    }
    assert AuthMiddleware.HeaderToken(None) == None;
    assert BodyField(req, "price") == Some(Num(-1.0));
    assert ProductController.Copied <= req.body.Keys;
  }

  /** Through the guarded router the same request is answered 401 and
      nothing is stored. */
  lemma GuardedCreateRejectsUnchecked(store: Store, snapshot: seq<Doc>, env: Env)
    requires Enumerates(snapshot, store)
    requires env.freshId !in store
    ensures GuardedHandle(CreateProduct, Unchecked(), store, snapshot, env) ==
              Handled(Send(Response(401, ErrorBody(AuthMiddleware.NoToken))), store)
  {
    assert AuthMiddleware.HeaderToken(None) == None;
  }
}

=== FILE: round_trips.dfy ===
/** What a later read sees after each write of the two controllers. */
module RoundTrips {
  import opened JsValues
  import opened Documents
  import opened Http
  import opened Runtime
  import ProductController
  import CategoryController

  /** The fields a by-id read answers with, if it answers 200. */
  function Fields(h: Handled): Record
    requires h.reply.Send? && h.reply.response.payload.RecordBody?
  {
    h.reply.response.payload.fields
  }

  /** A created product reads back under the id the create answered with:
      the text fields exactly as sent, a numeric price, an array of URLs
      and a boolean availability unchanged, and equal timestamps. */
  lemma ProductCreateThenGet(store: Store, body: map<string, Value>, env: Env)
    requires env.freshId !in store
    requires ProductController.Copied <= body.Keys
    ensures var created := ProductController.CreateProduct(store, body, env);
            var read := ProductController.GetProductById(created.store, created.reply.response.payload.id);
            && read.reply.Send? && read.reply.response.status == 200 && read.reply.response.payload.RecordBody?
            && Fields(read)[IdField] == Some(Str(env.freshId))
            && (forall f :: f in {"name", "description", "category"} ==> Fields(read)[f] == Lookup(body, f))
            && (forall n :: Lookup(body, "price") == Some(Num(n)) ==> Fields(read)["price"] == Some(Num(n)))
            && (IsArray(Lookup(body, "imageUrls")) ==> Fields(read)["imageUrls"] == Lookup(body, "imageUrls"))
            && (forall b :: Lookup(body, "isAvailable") == Some(Bool(b)) ==> Fields(read)["isAvailable"] == Some(Bool(b)))
            && Fields(read)[CreatedAt] == Fields(read)[UpdatedAt] == Some(Str(env.now))
  {
  }

  /** The text "false" passes the `isAvailable` check, yet the product
      created from it is stored as available: only a boolean is copied. */
  lemma TextFalseStoredAvailable(store: Store, body: map<string, Value>, env: Env)
    requires env.freshId !in store
    requires ProductController.Copied <= body.Keys
    requires Lookup(body, "isAvailable") == Some(Str("false"))
    ensures ProductController.CreateProduct(store, body, env).store[env.freshId]["isAvailable"] == Some(Bool(true))
  {
  }

  /** After an update of a stored product, a read shows the sent editable
      fields as written, the new `updatedAt`, and every other stored field
      as before. */
  lemma ProductUpdateThenGet(store: Store, id: Id, body: map<string, Value>, env: Env)
    requires id in store
    ensures var updated := ProductController.UpdateProduct(store, id, body, env);
            var read := ProductController.GetProductById(updated.store, id);
            && read.reply.Send? && read.reply.response.status == 200 && read.reply.response.payload.RecordBody?
            && Fields(read)[UpdatedAt] == Some(Str(env.now))
            && (forall f :: f in ProductController.Editable && f in body ==>
                  Fields(read)[f] == Some(ProductController.Stored(f, body[f], env)))
            && (forall f :: f in store[id] && f != UpdatedAt && !(f in ProductController.Editable && f in body) ==>
                  Fields(read)[f] == store[id][f])
  {
  }

  /** After a delete, whether or not the id was stored, a read of it is
      404 and every other product reads as before. */
  lemma ProductDeleteThenGet(store: Store, id: Id, other: Id)
    requires other != id
    ensures var deleted := ProductController.DeleteProduct(store, id);
            && ProductController.GetProductById(deleted.store, id).reply ==
                 Send(Response(404, ErrorBody("Product not found")))
            && ProductController.GetProductById(deleted.store, other).reply ==
                 ProductController.GetProductById(store, other).reply
  {
  }

  /** A created category reads back with its name as sent and its
      description, or `""` when the sent one was falsy. */
  lemma CategoryCreateThenGet(store: Store, body: map<string, Value>, env: Env)
    requires env.freshId !in store
    requires "name" in body
    ensures var created := CategoryController.CreateCategory(store, body, env);
            var read := CategoryController.GetCategoryById(created.store, created.reply.response.payload.id);
            && read.reply.Send? && read.reply.response.status == 200 && read.reply.response.payload.RecordBody?
            && Fields(read)[IdField] == Some(Str(env.freshId))
            && Fields(read)["name"] == Lookup(body, "name")
            && Fields(read)["description"] ==
                 (if TruthyField(Lookup(body, "description")) then Lookup(body, "description") else Some(Str("")))
            && Fields(read)[CreatedAt] == Fields(read)[UpdatedAt] == Some(Str(env.now))
  {
  }

  /** After an update of a stored category, a read shows the sent name and
      description and every other stored field as before. */
  lemma CategoryUpdateThenGet(store: Store, id: Id, body: map<string, Value>, env: Env)
    requires id in store
    ensures var updated := CategoryController.UpdateCategory(store, id, body, env);
            var read := CategoryController.GetCategoryById(updated.store, id);
            && read.reply.Send? && read.reply.response.status == 200 && read.reply.response.payload.RecordBody?
            && Fields(read)[UpdatedAt] == Some(Str(env.now))
            && (forall f :: f in {"name", "description"} && f in body ==> Fields(read)[f] == Some(body[f]))
            && (forall f :: f in store[id] && f !in {UpdatedAt, "name", "description"} ==> Fields(read)[f] == store[id][f])
  {
  }

  /** After a delete a read of the id is 404. */
  lemma CategoryDeleteThenGet(store: Store, id: Id)
    ensures CategoryController.GetCategoryById(CategoryController.DeleteCategory(store, id).store, id).reply ==
              Send(Response(404, ErrorBody("Category not found")))
  {
  }
}

=== FILE: search.dfy ===
/** The in-memory search both list endpoints apply after fetching:
    keep a record when its lower-cased `name` or `description` contains the
    lower-cased search term. */
module Search {
  import opened JsValues
  import opened Documents
  import opened Seqs

  /** What `rec.f?.toLowerCase()` sees in a field: nothing (`undefined` or
      `null`, where `?.` stops), a string, or a value without a
      `toLowerCase` method, on which the call throws. */
  datatype FieldText = Missing | Text(s: string) | NotText

  function TextOf(v: Option<Value>): FieldText {
    match v
    case None => Missing
    case Some(Null) => Missing
    case Some(Str(s)) => Text(s)
    case Some(_) => NotText
  }

  /** The outcome of the filter callback on one record. */
  datatype Verdict = Keep | Drop | Throws

  /** The independent reading of a match: the field holds a string whose
      lower-cased form contains `lower`. */
  predicate FieldMentions(t: FieldText, lower: string) {
    t.Text? && Contains(Lower(t.s), lower)
  }

  /** The record's name or description mentions `lower`. */
  predicate Mentions(rec: Record, lower: string) {
    FieldMentions(TextOf(Get(rec, "name")), lower)
      || FieldMentions(TextOf(Get(rec, "description")), lower)
  }

  /** `f?.toLowerCase().includes(lower)` for one field. */
  function FieldVerdict(t: FieldText, lower: string): (v: Verdict)
    ensures v == Keep <==> FieldMentions(t, lower)
    ensures v == Throws <==> t.NotText?
  {
    match t
    case Missing => Drop
    case Text(s) => if Contains(Lower(s), lower) then Keep else Drop
    case NotText => Throws
  }

  /** `p.name?.toLowerCase().includes(lower) || p.description?.toLowerCase().includes(lower)`:
      the description is only looked at when the name does not match. */
  function Judge(rec: Record, lower: string): (v: Verdict)
    ensures v == Keep ==> Mentions(rec, lower)
    ensures v == Drop ==> !Mentions(rec, lower)
    ensures v == Throws <==>
              TextOf(Get(rec, "name")).NotText?
              || (!FieldMentions(TextOf(Get(rec, "name")), lower) && TextOf(Get(rec, "description")).NotText?)
  {
    match FieldVerdict(TextOf(Get(rec, "name")), lower)
    case Keep => Keep
    case Throws => Throws
    case Drop => FieldVerdict(TextOf(Get(rec, "description")), lower)
  }

  /** `items.filter(judge)`: `None` when the callback throws on some record,
      otherwise the mentioning records in their original order. */
  function Filter(items: seq<Record>, lower: string): (r: Option<seq<Record>>)
    ensures r.None? <==> exists i :: 0 <= i < |items| && Judge(items[i], lower) == Throws
    ensures r.Some? ==> IsSubsequence(r.value, items)
    ensures r.Some? ==> forall x :: x in r.value <==> x in items && Mentions(x, lower)
    ensures r.Some? ==> forall x :: multiset(r.value)[x] == if Mentions(x, lower) then multiset(items)[x] else 0
    decreases |items|
  {
    if items == [] then Some([])
    else
      var rest := Filter(items[1..], lower);
      assert items == [items[0]] + items[1..];
      match Judge(items[0], lower)
      case Throws => None
      case Keep => (if rest.None? then None else Some([items[0]] + rest.value))
      case Drop => rest
  }

  /** `if (search) { ... filter ... }`: an absent or empty term leaves the
      list as fetched; otherwise the list is filtered by the lower-cased
      term. */
  function ApplySearch(items: seq<Record>, search: Option<string>): (r: Option<seq<Record>>)
    ensures search.None? || search == Some("") ==> r == Some(items)
    ensures r.Some? ==> IsSubsequence(r.value, items)
    ensures forall t :: search == Some(t) && t != "" ==>
              (r.None? <==> exists i :: 0 <= i < |items| && Judge(items[i], Lower(t)) == Throws)
    ensures forall t :: search == Some(t) && t != "" && r.Some? ==>
              forall x :: x in r.value <==> x in items && Mentions(x, Lower(t))
    ensures forall t :: search == Some(t) && t != "" && r.Some? ==>
              forall x :: multiset(r.value)[x] == if Mentions(x, Lower(t)) then multiset(items)[x] else 0
  {
    if search.Some? && search.value != "" then Filter(items, Lower(search.value))
    else
      SubsequenceRefl(items);
      Some(items)
  }

  /** The search ignores the case of the term: searching for `t` and for
      its lower-cased form give the same answer. */
  lemma SearchIgnoresCase(items: seq<Record>, t: string)
    ensures ApplySearch(items, Some(t)) == ApplySearch(items, Some(Lower(t)))
  {
    LowerIdempotent(t);
  }

  /** A record whose lower-cased name holds the lower-cased term is kept,
      whatever else it holds: `||` never reaches its description. */
  lemma NameMatchKeeps(rec: Record, name: string, term: string, i: int)
    requires Get(rec, "name") == Some(Str(name))
    requires OccursAt(Lower(name), Lower(term), i)
    ensures Judge(rec, Lower(term)) == Keep
  {
    ContainsIffOccurs(Lower(name), Lower(term));
  }

  /** A record named "Spicy Tuna Roll" is kept for the terms "spicy",
      "TUNA" and "roll", even with a numeric description, on which
      `toLowerCase` would throw had the search reached it. */
  lemma SpicyTunaRoll()
    ensures var rec := map["name" := Some(Str("Spicy Tuna Roll")), "description" := Some(Num(3.0))];
            && Judge(rec, Lower("spicy")) == Keep
            && Judge(rec, Lower("TUNA")) == Keep
            && Judge(rec, Lower("roll")) == Keep
  {
    var name := "Spicy Tuna Roll";
    var rec := map["name" := Some(Str(name)), "description" := Some(Num(3.0))];
    assert Lower(name) == "spicy" + " " + "tuna" + " " + "roll" by {
      assert Lower(name) == "spicy tuna roll";
    }
    assert Lower("spicy") == "spicy";
    assert Lower("TUNA") == "tuna";
    assert Lower("roll") == "roll";
    NameMatchKeeps(rec, name, "spicy", 0);
    NameMatchKeeps(rec, name, "TUNA", 6);
    assert Lower(name)[11..15] == "roll";
    NameMatchKeeps(rec, name, "roll", 11);
  }
}

=== FILE: seqs.dfy ===
/** Order-preserving selection from a sequence. */
module Seqs {

  /** `a` is `b` with some elements dropped and the rest kept in order. */
  predicate IsSubsequence<T(==)>(a: seq<T>, b: seq<T>)
    decreases |b|
  {
    if a == [] then true
    else if b == [] then false
    else (a[0] == b[0] && IsSubsequence(a[1..], b[1..])) || IsSubsequence(a, b[1..])
  }

  /** Every element of a subsequence is an element of the whole. */
  lemma {:induction false} SubsequenceMembers<T>(a: seq<T>, b: seq<T>)
    requires IsSubsequence(a, b)
    ensures forall x :: x in a ==> x in b
    decreases |b|
  {
    if a != [] && b != [] {
      if a[0] == b[0] && IsSubsequence(a[1..], b[1..]) {
        SubsequenceMembers(a[1..], b[1..]);
        assert a == [a[0]] + a[1..];
      } else {
        SubsequenceMembers(a, b[1..]);
      }
    }
  }

  /** Every sequence is a subsequence of itself. */
  lemma {:induction false} SubsequenceRefl<T>(s: seq<T>)
    ensures IsSubsequence(s, s)
    decreases |s|
  {
    if s != [] {
      SubsequenceRefl(s[1..]);
    }
  }
}

=== FILE: validate_request.dfy ===
/** `validateRequest`: turns the errors the chains collected into a 422
    response, or lets the request through to the next handler. */
module ValidateRequest {
  import opened Http
  import opened Validation

  /** What a middleware does: call `next()`, or answer and stop. */
  datatype Step = Next | Halt(response: Response)

  /** The `details` list: one `{ field, message }` per error, in order,
      entry `i` copying the `param` and `msg` of error `i`. `param` is the
      rendered path as express-validator 6 sets it. */
  function Details(errs: seq<FieldError>): (ds: seq<Detail>)
    ensures |ds| == |errs|
    ensures forall i :: 0 <= i < |errs| ==> ds[i].field == Render(errs[i].path) && ds[i].message == errs[i].msg
  {
    seq(|errs|, i requires 0 <= i < |errs| => Detail(Render(errs[i].path), errs[i].msg))
  }

  /** The middleware itself. */
  function Middleware(errs: seq<FieldError>): (s: Step)
    ensures s.Next? <==> errs == []
    ensures s.Halt? ==> s.response.status == 422
    ensures s.Halt? ==> s.response.payload.ValidationBody?
                        && s.response.payload.error == "Validation failed"
    ensures s.Halt? ==>
              var ds := s.response.payload.details;
              && |ds| == |errs|
              && forall i :: 0 <= i < |errs| ==>
                   ds[i].field == Render(errs[i].path) && ds[i].message == errs[i].msg
  {
    if errs != [] then Halt(Response(422, ValidationBody("Validation failed", Details(errs))))
    else Next
  }

  /** Errors collected by consecutive chain lists are reported in that
      order: the details of a concatenation are the concatenated details. */
  lemma DetailsAppend(a: seq<FieldError>, b: seq<FieldError>)
    ensures Details(a + b) == Details(a) + Details(b)
  {
    var l := Details(a + b);
    var r := Details(a) + Details(b);
    assert |l| == |r|;
    forall i | 0 <= i < |l|
      ensures l[i] == r[i]
    {
      if i < |a| {
        assert (a + b)[i] == a[i];
      } else {
        assert (a + b)[i] == b[i - |a|];
      }
    }
  }
}

=== FILE: validation.dfy ===
/** The declarative request checks of the route files: each chain selects
    a field of the body, query or path, and runs its checks in order; every
    failing check adds one error, and all chains run (nothing stops at the
    first error). */
module Validation {
  import opened JsValues
  import opened Http
  import opened Runtime

  datatype Location = InBody | InQuery | InParams

  /** The checks the routes use:
      `notEmpty()`, `isFloat({ gt: 0 })`, `isIn([...])`, `isArray({ min })`,
      `isURL()`, `isBoolean()`, `isString()`. */
  datatype Check =
    | NotEmpty
    | PositiveFloat
    | IsIn(options: seq<string>)
    | IsArray(min: nat)
    | IsUrl
    | IsBoolean
    | IsString

  /** A check with the message `withMessage` attaches to it. */
  datatype Step = Step(check: Check, message: string)

  /** `body("f")` selects one field; `body("f.*")` selects each element of
      the array at `f`. */
  datatype Selector = Field(name: string) | EachElement(name: string)

  /** One validation chain; an `optional()` chain is skipped when its value
      is `undefined`. */
  datatype Chain = Chain(location: Location, selector: Selector, optional: bool, steps: seq<Step>)

  /** Where an error points: a field, or an element `name[index]`. */
  datatype Path = Key(name: string) | Index(name: string, index: nat)

  /** One entry of `validationResult(req)`: `param` and `msg`. */
  datatype FieldError = FieldError(location: Location, path: Path, msg: string)

  /** The message of a check without `withMessage`. */
  const DefaultMessage := "Invalid value"

  /** The `param` string of an error path, as in `imageUrls[0]`. */
  function Render(p: Path): string {
    match p
    case Key(n) => n
    case Index(n, i) => n + "[" + Decimal(i) + "]"
  }

  /** The value a chain's selector reads; the only path parameter is `id`. */
  function Locate(req: Request, loc: Location, name: string): Option<Value> {
    match loc
    case InBody => BodyField(req, name)
    case InQuery => QueryField(req, name)
    case InParams => if name == "id" then Some(Str(req.id)) else None
  }

  /** The values whose text form is empty for `notEmpty()`: `undefined`,
      `null`, `NaN`, `""`, and `[]` met as an element of an array. */
  predicate EmptyText(v: Option<Value>) {
    v.None? || v == Some(Null) || v == Some(NaN) || v == Some(Str("")) || v == Some(Arr([]))
  }

  /** `isFloat({ gt: 0 })`: a number above zero, or a text the library
      reads as a float above zero. That reading is its own grammar, not
      `Number`'s: it refuses `" 5"`, `"0x10"` and `"Infinity"`. */
  predicate PositiveNumber(v: Option<Value>, env: Env) {
    match v
    case Some(Num(n)) => n > 0.0
    case Some(Str(s)) => env.floatText(s).Some? && env.floatText(s).value > 0.0
    case _ => false
  }

  /** `isBoolean()` in its strict form: a boolean, one of the texts
      `true`, `false`, `1`, `0`, or the numbers 1 and 0. */
  predicate BooleanLike(v: Option<Value>) {
    match v
    case Some(Bool(_)) => true
    case Some(Str(s)) => s in ["true", "false", "1", "0"]
    case Some(Num(n)) => n == 0.0 || n == 1.0
    case _ => false
  }

  /** Whether a check is one of the library's standard validators, which
      read the text form of what they judge. `isArray` and `isString` are
      custom ones and judge the value as it is. */
  predicate Standard(c: Check) {
    !(c.IsArray? || c.IsString?)
  }

  /** Whether a check accepts one value it judges. */
  predicate Accepts(c: Check, v: Option<Value>, env: Env) {
    match c
    case NotEmpty => !EmptyText(v)
    case PositiveFloat => PositiveNumber(v, env)
    case IsIn(options) => v.Some? && v.value.Str? && v.value.s in options
    case IsArray(min) => v.Some? && v.value.Arr? && |v.value.items| >= min
    case IsUrl => v.Some? && v.value.Str? && env.isUrl(v.value.s)
    case IsBoolean => BooleanLike(v)
    case IsString => v.Some? && v.value.Str?
  }

  /** Whether a value passes a check: a standard check must accept each
      element of an array value, so an empty array passes it, and any
      other value itself; a custom check judges the value once. */
  predicate Passes(c: Check, v: Option<Value>, env: Env) {
    if Standard(c) && v.Some? && v.value.Arr? then forall x :: x in v.value.items ==> Accepts(c, Some(x), env)
    else Accepts(c, v, env)
  }

  /** How many elements of `xs` a check rejects. */
  function Rejected(c: Check, xs: seq<Value>, env: Env): (n: nat)
    ensures n <= |xs|
    ensures n == 0 <==> forall x :: x in xs ==> Accepts(c, Some(x), env)
    ensures n == |xs| <==> forall x :: x in xs ==> !Accepts(c, Some(x), env)
    decreases |xs|
  {
    if xs == [] then 0
    else
      assert xs == [xs[0]] + xs[1..];
      (if Accepts(c, Some(xs[0]), env) then 0 else 1) + Rejected(c, xs[1..], env)
  }

  /** How many errors a check adds for a value: one per element of an
      array value a standard check rejects, otherwise one if the check
      rejects the value. None exactly when the value passes. */
  function Failures(c: Check, v: Option<Value>, env: Env): (n: nat)
    ensures n == 0 <==> Passes(c, v, env)
    ensures !(v.Some? && v.value.Arr?) ==> n <= 1
    ensures Standard(c) && v.Some? && v.value.Arr? ==> n <= |v.value.items|
  {
    if Standard(c) && v.Some? && v.value.Arr? then Rejected(c, v.value.items, env)
    else if Accepts(c, v, env) then 0 else 1
  }

  /** Some element of an array value, or else the value itself, has an
      empty text form. */
  predicate HasEmptyText(v: Option<Value>) {
    if v.Some? && v.value.Arr? then exists x :: x in v.value.items && EmptyText(Some(x)) else EmptyText(v)
  }

  /** Some element of an array value, or else the value itself, is not a
      positive number. */
  predicate HasNonPositive(v: Option<Value>, env: Env) {
    if v.Some? && v.value.Arr? then exists x :: x in v.value.items && !PositiveNumber(Some(x), env)
    else !PositiveNumber(v, env)
  }

  /** Some element of an array value, or else the value itself, is not one
      of the texts `options`. */
  predicate HasOutside(v: Option<Value>, options: seq<string>) {
    if v.Some? && v.value.Arr? then exists x :: x in v.value.items && !(x.Str? && x.s in options)
    else !(v.Some? && v.value.Str? && v.value.s in options)
  }

  /** Some element of an array value, or else the value itself, is not
      boolean-like. */
  predicate HasNonBoolean(v: Option<Value>) {
    if v.Some? && v.value.Arr? then exists x :: x in v.value.items && !BooleanLike(Some(x))
    else !BooleanLike(v)
  }

  /** The standard checks the routes use reject a value exactly when one
      of its elements, or the value itself when it is not an array, fails:
      `notEmpty()`, `isFloat({ gt: 0 })`, `isIn(options)`, `isBoolean()`. */
  lemma StandardRejections(v: Option<Value>, options: seq<string>, env: Env)
    ensures !Passes(NotEmpty, v, env) <==> HasEmptyText(v)
    ensures !Passes(PositiveFloat, v, env) <==> HasNonPositive(v, env)
    ensures !Passes(IsIn(options), v, env) <==> HasOutside(v, options)
    ensures !Passes(IsBoolean, v, env) <==> HasNonBoolean(v)
  {
  }

  /** `n` copies of `e`. */
  function Repeat(e: FieldError, n: nat): (r: seq<FieldError>)
    ensures |r| == n
    ensures forall x :: x in r <==> n > 0 && x == e
  {
    if n == 0 then [] else [e] + Repeat(e, n - 1)
  }

  /** The errors of one selected value: each step adds its message once
      per judged value it rejects, steps in order. */
  function StepErrors(loc: Location, path: Path, v: Option<Value>, steps: seq<Step>, env: Env): (r: seq<FieldError>)
    ensures forall e :: e in r ==> e.location == loc && e.path == path
    ensures forall e :: e in r <==>
              exists k :: 0 <= k < |steps| && e == FieldError(loc, path, steps[k].message)
                          && !Passes(steps[k].check, v, env)
    decreases |steps|
  {
    if steps == [] then []
    else
      var rest := StepErrors(loc, path, v, steps[1..], env);
      assert forall k :: 1 <= k < |steps| ==> steps[k] == steps[1..][k - 1];
      Repeat(FieldError(loc, path, steps[0].message), Failures(steps[0].check, v, env)) + rest
  }

  /** The errors of the elements `xs[from..]` of the array at `name`. */
  function ElementErrors(loc: Location, name: string, xs: seq<Value>, from: nat, steps: seq<Step>, env: Env)
    : (r: seq<FieldError>)
    requires from <= |xs|
    ensures forall e :: e in r ==> e.location == loc && e.path.Index? && e.path.name == name
    ensures forall e :: e in r <==>
              exists i :: from <= i < |xs| && e in StepErrors(loc, Index(name, i), Some(xs[i]), steps, env)
    decreases |xs| - from
  {
    if from == |xs| then []
    else
      StepErrors(loc, Index(name, from), Some(xs[from]), steps, env)
        + ElementErrors(loc, name, xs, from + 1, steps, env)
  }

  /** The chain that selects the value an error points at: same location,
      and a field chain for a `Key`, an element chain for an `Index`. */
  predicate Owns(c: Chain, e: FieldError) {
    && e.location == c.location
    && match e.path
       case Key(n) => c.selector == Field(n)
       case Index(n, _) => c.selector == EachElement(n)
  }

  /** The errors one chain adds; each points at what the chain selects. */
  function ChainErrors(c: Chain, req: Request, env: Env): (r: seq<FieldError>)
    ensures forall e :: e in r ==> Owns(c, e)
  {
    match c.selector
    case Field(n) =>
      var v := Locate(req, c.location, n);
      if c.optional && v.None? then [] else StepErrors(c.location, Key(n), v, c.steps, env)
    case EachElement(n) =>
      match Locate(req, c.location, n)
      case Some(Arr(xs)) => ElementErrors(c.location, n, xs, 0, c.steps, env)
      case _ => []
  }

  /** `validationResult(req)` after a list of chains ran: every chain's
      errors, chain after chain. */
  function RunChains(cs: seq<Chain>, req: Request, env: Env): seq<FieldError>
    decreases |cs|
  {
    if cs == [] then [] else ChainErrors(cs[0], req, env) + RunChains(cs[1..], req, env)
  }

  /** Every chain runs: an error is collected iff some chain raises it. */
  lemma {:induction false} RunChainsMembers(cs: seq<Chain>, req: Request, env: Env)
    ensures forall e :: e in RunChains(cs, req, env) <==> exists i :: 0 <= i < |cs| && e in ChainErrors(cs[i], req, env)
    decreases |cs|
  {
    if cs != [] {
      RunChainsMembers(cs[1..], req, env);
      assert forall i :: 1 <= i < |cs| ==> cs[i] == cs[1..][i - 1];
    }
  }

  /** `validationResult(req).isEmpty()` holds exactly when no chain
      records an error. */
  lemma {:induction false} NoErrorsIffChainsPass(cs: seq<Chain>, req: Request, env: Env)
    ensures RunChains(cs, req, env) == [] <==> forall i :: 0 <= i < |cs| ==> ChainErrors(cs[i], req, env) == []
    decreases |cs|
  {
    if cs != [] {
      NoErrorsIffChainsPass(cs[1..], req, env);
      assert forall i :: 1 <= i < |cs| ==> cs[i] == cs[1..][i - 1];
    }
  }

  /** Running two lists of chains one after the other collects the errors
      of the first list, then those of the second. */
  lemma {:induction false} RunChainsAppend(a: seq<Chain>, b: seq<Chain>, req: Request, env: Env)
    ensures RunChains(a + b, req, env) == RunChains(a, req, env) + RunChains(b, req, env)
    decreases |a|
  {
    if a == [] {
      assert a + b == b;
    } else {
      assert (a + b)[1..] == a[1..] + b;
      RunChainsAppend(a[1..], b, req, env);
    }
  }

  /** Running a chain and then a list of chains. */
  lemma RunChainsCons(c: Chain, cs: seq<Chain>, req: Request, env: Env)
    ensures RunChains([c] + cs, req, env) == ChainErrors(c, req, env) + RunChains(cs, req, env)
  {
    assert ([c] + cs)[1..] == cs;
  }

  /** The errors of a field chain with one check: its message once per
      judged value the check rejects, unless `optional()` skips an
      undefined value. */
  lemma OneStepChain(loc: Location, n: string, optional: bool, st: Step, req: Request, env: Env)
    ensures var v := Locate(req, loc, n);
            ChainErrors(Chain(loc, Field(n), optional, [st]), req, env) ==
              if optional && v.None? then []
              else Repeat(FieldError(loc, Key(n), st.message), Failures(st.check, v, env))
    ensures var v := Locate(req, loc, n);
            forall e :: e in ChainErrors(Chain(loc, Field(n), optional, [st]), req, env) <==>
              e == FieldError(loc, Key(n), st.message) && !(optional && v.None?) && !Passes(st.check, v, env)
  {
    var v := Locate(req, loc, n);
    assert [st][1..] == [];
    var r := Repeat(FieldError(loc, Key(n), st.message), Failures(st.check, v, env));
    assert StepErrors(loc, Key(n), v, [st], env) == r + [];
    assert r + [] == r;
  }

  /** The errors of a field chain with two checks: both run, the first
      one's errors before the second one's. */
  lemma TwoStepChain(loc: Location, n: string, optional: bool, s0: Step, s1: Step, req: Request, env: Env)
    ensures var v := Locate(req, loc, n);
            ChainErrors(Chain(loc, Field(n), optional, [s0, s1]), req, env) ==
              if optional && v.None? then []
              else Repeat(FieldError(loc, Key(n), s0.message), Failures(s0.check, v, env))
                   + Repeat(FieldError(loc, Key(n), s1.message), Failures(s1.check, v, env))
    ensures var v := Locate(req, loc, n);
            forall e :: e in ChainErrors(Chain(loc, Field(n), optional, [s0, s1]), req, env) <==>
              && !(optional && v.None?)
              && ((e == FieldError(loc, Key(n), s0.message) && !Passes(s0.check, v, env))
                  || (e == FieldError(loc, Key(n), s1.message) && !Passes(s1.check, v, env)))
  {
    var v := Locate(req, loc, n);
    assert [s0, s1][1..] == [s1];
    assert [s1][1..] == [];
    var r1 := Repeat(FieldError(loc, Key(n), s1.message), Failures(s1.check, v, env));
    assert StepErrors(loc, Key(n), v, [s1], env) == r1 + [];
    assert r1 + [] == r1;
  }

  /** The errors of a one-check element chain `f.*`: one per failing
      element of the array at `f`, pointing at that element. */
  lemma EachElementErrors(loc: Location, n: string, st: Step, req: Request, env: Env)
    ensures var v := Locate(req, loc, n);
            forall i: nat :: FieldError(loc, Index(n, i), st.message) in ChainErrors(Chain(loc, EachElement(n), true, [st]), req, env)
              <==> v.Some? && v.value.Arr? && i < |v.value.items| && !Passes(st.check, Some(v.value.items[i]), env)
  {
  }

  /** No two chains of the list select the same value. */
  predicate Selective(cs: seq<Chain>) {
    forall i, j :: 0 <= i < |cs| && 0 <= j < |cs| && i != j ==>
      cs[i].location != cs[j].location || cs[i].selector != cs[j].selector
  }

  /** When no other chain of a list selects the same value as `cs[k]`, the
      errors pointing at that value are exactly those of `cs[k]`. */
  lemma SoleOwner(cs: seq<Chain>, k: nat, req: Request, env: Env)
    requires k < |cs|
    requires forall j :: 0 <= j < |cs| && j != k ==> cs[j].location != cs[k].location || cs[j].selector != cs[k].selector
    ensures forall e :: Owns(cs[k], e) ==> (e in RunChains(cs, req, env) <==> e in ChainErrors(cs[k], req, env))
  {
    RunChainsMembers(cs, req, env);
    forall e, j | Owns(cs[k], e) && 0 <= j < |cs| && e in ChainErrors(cs[j], req, env)
      ensures j == k
    {
      assert Owns(cs[j], e);
    }
  }

  /** In a list where no two chains select the same value, an error at
      the field `cs[k]` selects, carrying the message of its step `j` (no other step of the chain has that message), is
      collected exactly when step `j` rejects the value, unless
      `optional()` skips an undefined value. */
  lemma SoleFieldFlag(cs: seq<Chain>, k: nat, j: nat, req: Request, env: Env)
    requires Selective(cs)
    requires k < |cs| && cs[k].selector.Field? && j < |cs[k].steps|
    requires forall i :: 0 <= i < |cs[k].steps| && i != j ==> cs[k].steps[i].message != cs[k].steps[j].message
    ensures var c := cs[k];
            var v := Locate(req, c.location, c.selector.name);
            FieldError(c.location, Key(c.selector.name), c.steps[j].message) in RunChains(cs, req, env) <==>
              !(c.optional && v.None?) && !Passes(c.steps[j].check, v, env)
  {
    SoleOwner(cs, k, req, env);
    var c := cs[k];
    assert Owns(c, FieldError(c.location, Key(c.selector.name), c.steps[j].message));
  }

  /** In a list where no two chains select the same value, a message no
      step of `cs[k]` carries is never collected at the field it selects. */
  lemma SoleFieldUnflagged(cs: seq<Chain>, k: nat, msg: string, req: Request, env: Env)
    requires Selective(cs)
    requires k < |cs| && cs[k].selector.Field?
    requires forall i :: 0 <= i < |cs[k].steps| ==> cs[k].steps[i].message != msg
    ensures FieldError(cs[k].location, Key(cs[k].selector.name), msg) !in RunChains(cs, req, env)
  {
    SoleOwner(cs, k, req, env);
    assert Owns(cs[k], FieldError(cs[k].location, Key(cs[k].selector.name), msg));
  }

  /** In a list where no two chains select the same value, element `i` of
      the array a one-check element chain `cs[k]` selects is flagged
      exactly when it exists and fails the check. */
  lemma SoleElementFlag(cs: seq<Chain>, k: nat, req: Request, env: Env)
    requires Selective(cs)
    requires k < |cs| && cs[k].selector.EachElement? && |cs[k].steps| == 1
    ensures var c := cs[k];
            var v := Locate(req, c.location, c.selector.name);
            forall i: nat :: FieldError(c.location, Index(c.selector.name, i), c.steps[0].message) in RunChains(cs, req, env) <==>
              v.Some? && v.value.Arr? && i < |v.value.items| && !Passes(c.steps[0].check, Some(v.value.items[i]), env)
  {
    var c := cs[k];
    SoleOwner(cs, k, req, env);
    assert c == Chain(c.location, EachElement(c.selector.name), c.optional, [c.steps[0]]);
    EachElementErrors(c.location, c.selector.name, c.steps[0], req, env);
    forall i: nat
      ensures Owns(c, FieldError(c.location, Index(c.selector.name, i), c.steps[0].message))
    {
    }
  }
}
